=== FILE: README.md ===
# dashel core, modelled in Dafny

DaSHEL (DAta Stream Helper Encapsulation Library) gives one interface to TCP
sockets, serial ports, files and the standard streams. A server application
describes each endpoint with a *target* string such as `tcp:localhost;33333`
or `ser:device=/dev/ttyUSB0;baud=57600`. A *Hub* then owns the resulting
*streams* and waits for activity on all of them, raising the application's
callbacks. This project models the three parts of that design that are
sequential and stateable, and proves properties about each:

- **Target naming** (`targets.dfy`, `text.dfy`, `target_properties.dfy`). A pure
  parser from a descriptor string `protocol:[key=]value;...` to a typed target,
  or an `InvalidTarget` exception. It works in three stages:
  - cut the text into a protocol name and tokens;
  - bind the tokens to the protocol's parameter names, using the implicit order
    for bare values;
  - resolve the named values, with defaults, into a `Target`.
- **Streams** (`streams.dfy`). A stream's target name and failure state, and
  its bytes as a first-in first-out queue. Typed reads and writes move the raw
  memory image of a fixed-width value. The byte order is that of the host, a
  parameter of the model, and no conversion is applied.
- **The hub** (`hub.dfy`). An immutable record with:
  - the map of owned streams and the set of data streams within it;
  - the stop flag;
  - the next stream identity;
  - the trace of callbacks raised (`connectionCreated`, `incomingData`,
    `connectionClosed`).

  The model covers `connect`, `closeStream`, `stop`, the destructor, one
  `step` pass over the streams found ready, and `run`.

The exception taxonomy is in `errors.dfy`, together with the `Result` type the
parser and the streams return.

The header's naming section says the parameters form a "comma separated list"
(dashel/dashel.h:74). The syntax line right after it (dashel/dashel.h:76)
separates them with `;`. The model follows the syntax line, so `;` is the
separator.

The serial parameters say "either port or device must be given"
(dashel/dashel.h:94-95), but the same line gives `port` a "default 1". The model
follows the default, so `ser:` alone names serial port 1.

Modelling decisions, where the header leaves room:
- **Descriptor text.**
  - Without `:`, or with nothing after it, a descriptor has no parameters.
  - A parameter containing `=` is keyed, and its key ends at the first `=`.
- **What the parser rejects.** Each of these is an `InvalidTarget` failure:
  - an empty value;
  - a key the protocol does not define;
  - a parameter given twice, whether by position and by key or by two keys;
  - more bare values than the protocol has parameters.
- **Serial targets.**
  - `port` must be at least 1, because ports are numbered "starting from 1".
  - A `port` given together with a `device` is still checked, although the
    device is the one used.
- **Required parameters.** `file` requires `name`. `mode` has no default and is
  optional. `tcp` requires `host` and `port`.
- **Stream failures.**
  - Reading, writing or flushing a stream that has already failed raises
    `InvalidOperation` and changes nothing.
  - A read that asks for more bytes than the stream holds has reached the end of
    the stream. The stream becomes failed and the read raises `ConnectionLost`.
  - What the device answers to a read or a write is a parameter: it completes,
    or it reports an error. An error fails the stream and raises `IOError`.
- **Opening targets.** What the operating system answers to a request to open a
  target is a parameter. Only a `tcp` target may become a listening stream;
  files, serial ports and the standard streams are data streams from the start
  (dashel/dashel.h:283-285).
- **Inside one `step`.**
  - `step` services the streams it owned when it began, in the order the
    readiness wait reported them.
  - A connection accepted during the pass is serviced from the next `step` on.
  - The readiness wait reports a set of streams, so a report names each stream
    at most once.
  - End of input or an I/O error on a data stream removes the stream and raises
    `connectionClosed(stream, false)`.
  - A report that does not fit the stream's kind is ignored: data or a hang-up
    on a listening stream, or an incoming connection on a data stream.
  - If the application's read inside `incomingData` finds the stream closed or
    broken, the hub removes it and raises `connectionClosed(stream, true)`.
  - Whether a callback called `stop()` during the pass is a parameter of `step`.

## Model

| member | source | states |
|---|---|---|
| Errors.SourceCode | dashel/dashel.h:115-125 | a cause's number is its position in the declaration, so distinct causes have distinct numbers below 9, and only `Unknown` has number 0 |
| Errors.CodesCoverDeclaration | dashel/dashel.h:115-125 | every number from 0 to 8 is the number of the cause declared at that position |
| Errors.Raise | dashel/dashel.h:139-145 | an exception raised before any stream exists carries the requested cause and names no stream |
| Streams.FailureOf | dashel/dashel.h:126-145 | an exception about a stream carries the requested cause and names that stream by its target |
| Text.SplitJoin | dashel/dashel.h:76 | cutting `;`-joined parameters at `;` gives back exactly those parameters when none of them contains `;` |
| Text.JoinSplit | dashel/dashel.h:76 | joining the pieces of a cut with `;` gives back the original parameter text |
| Text.ParseNatToString | dashel/dashel.h:95-100 | a number written in decimal reads back as the same number (ports, baud rates and bit counts are decimal) |
| Text.ParseNat | dashel/dashel.h:95-100 | a numeric parameter is accepted exactly when it is a non-empty string of decimal digits |
| Targets.ProtocolOf | dashel/dashel.h:78-83 | exactly the five names file, tcp, ser, stdin and stdout are recognised, each denoting its own protocol |
| Targets.ParseToken | dashel/dashel.h:75-76 | a parameter without `=` is a bare value; one with `=` is keyed, its key holds no `=`, and key, `=` and value rebuild the text |
| Targets.TokenizeDescriptorText | dashel/dashel.h:76 | writing a protocol and its parameters as `protocol:p1;...;pn` and cutting the text up again gives back the same protocol name and parameters |
| Targets.TokenizeAfterColon | dashel/dashel.h:76 | when the protocol name holds no `:`, the text after the first `:` is cut at `;` into the parameters, whatever `:` they contain |
| Targets.ParamNames | dashel/dashel.h:85-102 | the parameter names a protocol accepts, in its implicit order (file: name, mode; tcp: host, port; ser: device, port, baud, stop, parity, fc, bits; stdin and stdout: none), are pairwise distinct, so each position and each key binds exactly one name |
| Targets.SlotNames | dashel/dashel.h:75 | binding succeeds exactly when every bare value comes before any keyed one, stays within the implicit order, and every key is a parameter of the protocol; each token is bound to its key or to its position's name |
| Targets.ZipMap | dashel/dashel.h:75 | the parameter map holds exactly the bound names, each with the value given for it |
| Targets.BindParams | dashel/dashel.h:75 | a parameter list binds exactly when it is resolvable, names no parameter twice and has no empty value; the map sends each bound name to its value; otherwise InvalidTarget |
| Targets.ParseParams | dashel/dashel.h:74-83 | a descriptor is accepted exactly when the name before `:` is a known protocol and its parameters bind to that protocol's names; then the map sends each bound name to its value; otherwise InvalidTarget |
| Targets.ParseFileMode | dashel/dashel.h:87 | a file mode is accepted exactly when it is `read` or `write`, and it is printed back as the same word |
| Targets.ParseStopBits | dashel/dashel.h:97 | a stop-bit count is accepted exactly when it is `1` or `2` |
| Targets.ParseParity | dashel/dashel.h:98 | a parity is accepted exactly when it is `none`, `even` or `odd` |
| Targets.ParseFlowControl | dashel/dashel.h:99 | a flow control is accepted exactly when it is `none` or `hard` |
| Targets.ParseSerialPort | dashel/dashel.h:95 | a serial port number is accepted exactly when it is a decimal number of at least 1 |
| Targets.Setting | dashel/dashel.h:95-100 | an absent optional parameter takes its default; a present one is accepted exactly when its value checks, and then has that value |
| Targets.Required | dashel/dashel.h:85-91 | a parameter without default must be present and valid, otherwise InvalidTarget |
| Targets.ResolveSerial | dashel/dashel.h:93-100 | a serial target is accepted exactly when every given setting is valid; a given device takes priority over the port; the port defaults to 1, the baud rate to 115200, stop bits to 1, parity and flow control to none, bits to 8; every given setting is the one used |
| Targets.Resolve | dashel/dashel.h:85-102 | a file target is accepted exactly when `name` is given and any `mode` is `read` or `write`, and has that name and mode; a tcp target exactly when `host` and a decimal `port` are given, and has that host and port; a serial target exactly when every given setting is valid; stdin and stdout always |
| Targets.Parse | dashel/dashel.h:70-102 | any rejection is an InvalidTarget exception naming no stream; an unrecognised protocol is rejected; an accepted descriptor is the resolution of its bound parameters |
| TargetProperties.MixedFormsBindAlike | dashel/dashel.h:75 | whatever prefix of the values is written bare and whatever rest is keyed, the parameters bind to the same map: the first n names with the n values |
| TargetProperties.DescriptorFormsAgree | dashel/dashel.h:73-76 | for every protocol, a descriptor with any mix of bare-then-keyed values parses to the parameter map of the implicit order |
| TargetProperties.KeyedAndBareParseAlike | dashel/dashel.h:75-91 | a descriptor whose parameters are keyed parses to the same target as the one with bare values, for example `tcp:host=H;port=P` and `tcp:H;P` |
| TargetProperties.PositionalAfterKeyedRejected | dashel/dashel.h:75 | a bare value after a keyed one makes binding fail with InvalidTarget |
| TargetProperties.DescriptorPositionalAfterKeyedRejected | dashel/dashel.h:75 | a descriptor with a bare value after a keyed one is rejected with InvalidTarget |
| TargetProperties.StdioParams | dashel/dashel.h:102 | `stdin` and `stdout` bind an empty parameter map and refuse every parameter |
| TargetProperties.StdioTakesNoParameters | dashel/dashel.h:102 | a `stdin` or `stdout` descriptor is accepted exactly when it has no parameter |
| TargetProperties.SerialResolvesTo | dashel/dashel.h:93-100 | a serial parameter map that spells out every setting of a target, with only one of device and port, resolves to that target |
| TargetProperties.TcpResolves | dashel/dashel.h:89-91 | a tcp target written as `host` and decimal `port` keys resolves back to the same host and port |
| TargetProperties.FormatResolves | dashel/dashel.h:85-102 | the keyed parameters written for a well-formed target are writable and resolve back to that target |
| TargetProperties.ParseFormat | dashel/dashel.h:70-102 | every well-formed target, written as a fully keyed descriptor, parses back to itself |
| Streams.NewStream | dashel/dashel.h:178 | a new stream has not failed, has an empty fail reason and an empty queue, and keeps the target name it was given |
| Streams.Fail | dashel/dashel.h:183-198 | after fail the stream has failed with the given reason; its target name and queued bytes are unchanged |
| Streams.Write | dashel/dashel.h:207-216 | a write appends exactly the given bytes after those queued; on a failed stream it raises InvalidOperation and changes nothing; a device error fails the stream and raises IOError with the device's code |
| Streams.Read | dashel/dashel.h:234-242 | a read returns exactly the requested number of the oldest bytes; a device error fails the stream and raises IOError; if fewer bytes are queued the stream fails and ConnectionLost is raised; a failed stream raises InvalidOperation |
| Streams.Flush | dashel/dashel.h:227-232 | flushing leaves the stream unchanged and succeeds unless the stream has failed |
| Streams.FailedIsSticky | dashel/dashel.h:188-193 | once failed, a stream stays failed, and read, write and flush all raise |
| Streams.WriteThenRead | dashel/dashel.h:207-242 | bytes are read in the order they were written, after the ones already queued |
| Streams.LittleEndianRoundTrip | dashel/dashel.h:218-225 | decoding the byte image of a value of a given width gives the value |
| Streams.LittleEndianBytesOfValue | dashel/dashel.h:244-253 | encoding the value of a byte image gives back the same bytes |
| Streams.ImageRoundTrip | dashel/dashel.h:218-253 | on either byte order, a value's memory image denotes that value |
| Streams.WriteValue | dashel/dashel.h:218-225 | a typed write succeeds unless the stream has failed or the device errs, and then appends exactly sizeof(T) bytes, the value's image in the host's byte order |
| Streams.ReadValue | dashel/dashel.h:244-253 | a typed read succeeds exactly when the stream has not failed, the device completes and sizeof(T) bytes are queued; it takes exactly those bytes and reads them as an image in the host's byte order |
| Streams.WriteValueThenReadValue | dashel/dashel.h:218-253 | a value written and read back with the same width on one host is the same value, and nothing is left queued |
| Streams.CrossHostImagesMirror | dashel/dashel.h:218-253 | with no endian conversion, the two byte orders put mirror images of a value on the wire |
| Streams.CrossHostReadDiffers | dashel/dashel.h:218-253 | a two-byte 1 written by a little-endian host reads as 256 on a big-endian host |
| Hubs.NewHub | dashel/dashel.h:277-278 | a new hub owns no stream, has not been stopped and satisfies the invariant |
| Hubs.Open | dashel/dashel.h:283-293 | a parse failure leaves the hub unchanged and is returned; a refusal raises ConnectionFailed; otherwise a fresh stream named after the target is registered, it is a data stream unless it listens, and only a data stream is announced by connectionCreated after being inserted |
| Hubs.Connect | dashel/dashel.h:283-293 | connect keeps the invariant; a descriptor the parser rejects leaves the hub unchanged and raises InvalidTarget; connect succeeds exactly for accepted descriptors the system opens, and then returns a stream the hub did not own before, now registered under the target's name |
| Hubs.CloseStream | dashel/dashel.h:295-304 | closeStream removes the stream from both sets, leaves every other stream's membership and state unchanged, raises no connectionClosed, and changes nothing for a stream the hub does not own |
| Hubs.Stop | dashel/dashel.h:318-320 | stop sets the stop flag and changes nothing else |
| Hubs.Teardown | dashel/dashel.h:280-281 | the destructor closes every stream and raises no callback |
| Hubs.Accept | dashel/dashel.h:322-331 | a connection on a listening stream becomes a fresh data stream in both sets before connectionCreated names it |
| Hubs.Drop | dashel/dashel.h:344-354 | a stream found closed leaves both sets and its closing is reported once |
| Hubs.Deliver | dashel/dashel.h:333-342 | incomingData is raised for the stream; if the application's read succeeds the stream keeps the rest of the bytes, otherwise (failed stream, device error or too few bytes) it is removed and connectionClosed is raised with abnormal set; other streams are unchanged |
| Hubs.Handle | dashel/dashel.h:322-354 | for a stream owned when the pass began: an incoming connection on a listening stream registers and announces a new data stream; data on a data stream raises incomingData, possibly followed by connectionClosed(stream, true); end of input or an error on a data stream removes it and raises connectionClosed(stream, false); any other report changes nothing |
| Hubs.DropAdvances | dashel/dashel.h:344-354 | closing a stream removes it and reports it with connectionClosed, and every other stream keeps its state and kind |
| Hubs.DeliverAdvances | dashel/dashel.h:333-342 | delivering data changes only that stream, and if the application's read fails its removal is reported |
| Hubs.HandleAdvances | dashel/dashel.h:309-354 | servicing one ready stream changes no other owned stream, reports every removal, and only adds new data streams that it announces |
| Hubs.AdvancesTransitive | dashel/dashel.h:309-316 | servicing one set of streams and then another is a change of the same kind for the two sets together |
| Hubs.Service | dashel/dashel.h:309-316 | servicing a readiness report keeps the invariant and changes only owned streams the report names |
| Hubs.Step | dashel/dashel.h:309-320 | step keeps the invariant and only extends the trace; it returns false exactly when stop() was called before or during it, and a stopped hub is left unchanged |
| Hubs.StepTouchesOnlyReady | dashel/dashel.h:309-316 | a step leaves every stream the wait did not report as it was, reports every removal, and only adds announced data streams |
| Hubs.StepAfterStop | dashel/dashel.h:314-320 | after stop(), step returns false and changes nothing |
| Hubs.StepCreatedAreDataStreams | dashel/dashel.h:322-331 | every connection announced during a step is a registered data stream when step returns |
| Hubs.ServiceDeliversData | dashel/dashel.h:333-342 | every data stream of the pass on which the wait found data has incomingData raised for it during the pass |
| Hubs.ServiceAcceptsIncoming | dashel/dashel.h:322-331 | every listening stream of the pass on which the wait found a peer yields a connectionCreated during the pass, naming a new identity that is a data stream when the pass ends |
| Hubs.StepDeliversData | dashel/dashel.h:309-316 | step reads all available data: a data stream owned when step began and reported with data has incomingData raised for it |
| Hubs.StepAcceptsIncoming | dashel/dashel.h:309-316 | step takes connections from the listening streams: a listening stream owned when step began and reported with a peer gives a new data stream, announced by connectionCreated and registered when step returns |
| Hubs.ServiceRemovesHungUp | dashel/dashel.h:344-354 | a data stream of the pass that reached end of input or failed is no longer owned when the pass ends, and its closing was reported with abnormal unset |
| Hubs.StepHangUpClosesOnce | dashel/dashel.h:344-354 | a data stream that hung up during a step is gone when it returns, and connectionClosed(stream, false) was raised for it exactly once |
| Hubs.RunStopsEarlyOnlyWhenStopped | dashel/dashel.h:306-307 | a run ends before its rounds run out only when the hub has been stopped |
| Hubs.RunStoppedIff | dashel/dashel.h:306-307 | the hub is stopped at the end of a run exactly when it was stopped before or stop() was called in a round the run went through |
| Hubs.RunContinuesUntilStop | dashel/dashel.h:306-307 | a run on a running hub continues past every round except the one that called stop() |
| Hubs.Run | dashel/dashel.h:306-307 | the loop gives the same hub and number of steps as calling step once per round until it returns false, stops at the first round in which stop() was called, and keeps the invariant throughout |

## Left out

- `SerialPortEnumerator::getPorts` (dashel/dashel.h:151-161): it is a query to the operating system, and none of its logic is shown.
- Creating operating-system resources (opening files, TCP connect, listen and accept, opening serial ports with their settings): the outcome of opening a target is a parameter of `Connect`.
- The readiness wait and the `timeout` argument of `step` (dashel/dashel.h:309-316): what each wait finds ready is a parameter of `Step`, and time is not modelled.
- `hTerminate` and waking a blocked `step` from another thread (dashel/dashel.h:270, 318-320): this is concurrency. Whether `stop()` was called during a pass is a parameter.
- `sysMessage` and the raw `Stream*` in `DashelException` (dashel/dashel.h:130-136): an exception names its stream by target name, and operating-system messages are not modelled.
- Callbacks acting on the hub. The hub does not model `connectionCreated` closing the new stream (dashel/dashel.h:325), `closeStream` called from inside `connectionClosed` (dashel/dashel.h:298-299, 347-348), or writes made by callbacks. The only application action modelled is the read inside `incomingData` and a call to `stop()`.
- The `PreviousIncomingDataNotRead` guard (dashel/dashel.h:124, 338): the application's read in `incomingData` is part of the readiness report, so a stream that is ready again without new data is not modelled.
- Hubs.Run: takes a finite list of rounds and also ends when they run out, because an unbounded loop that waits for the outside world is not modelled.
- Numeric parameters: a tcp port, a serial port, a baud rate and a bit count are unbounded decimal numbers, so `tcp:h;99999999` is accepted. The header gives no range for them, and the limits of the operating system are not modelled.
- Streams.Flush: a flush never reports a device error, because the header documents none for it.
- Streams.WriteValue: covers unsigned fixed-width values only; signed and floating-point types have other memory images and are left out.
- Listening streams: the header mentions a `tcpin:` target (dashel/dashel.h:324) that its protocol list (dashel/dashel.h:78-83) does not define. Listening is therefore decided by the opening outcome for a `tcp` target.

=== FILE: errors.dfy ===
/**
 The error taxonomy shared by every part of the library: the cause categories of
 a DashelException, the exception value itself, and the failure-compatible
 Result type that stands in for C++ exceptions throughout the model.
 */
module Errors {

  /** The cause categories of a failure, in the order the library declares them. */
  datatype Source =
    | Unknown
    | SyncError
    | InvalidTarget
    | InvalidOperation
    | ConnectionLost
    | IOError
    | ConnectionFailed
    | EnumerationError
    | PreviousIncomingDataNotRead

  /** The causes in the order the enumeration declares them. */
  const Declared: seq<Source> := [Unknown, SyncError, InvalidTarget, InvalidOperation, ConnectionLost,
                                  IOError, ConnectionFailed, EnumerationError, PreviousIncomingDataNotRead]

  /**
   The position of a cause in the enumeration, i.e. its C++ enumerator value:
   the cause found at index `code` of the declaration is `s` itself, so
   distinct causes have distinct codes.
   */
  function SourceCode(s: Source): (code: nat)
    ensures code < |Declared| && Declared[code] == s
    ensures s == Unknown <==> code == 0
  {
    match s
    case Unknown => 0
    case SyncError => 1
    case InvalidTarget => 2
    case InvalidOperation => 3
    case ConnectionLost => 4
    case IOError => 5
    case ConnectionFailed => 6
    case EnumerationError => 7
    case PreviousIncomingDataNotRead => 8
  }

  /** Every code from 0 to 8 is the code of the cause declared at that position. */
  lemma {:induction false} CodesCoverDeclaration(i: nat)
    requires i < |Declared|
    ensures SourceCode(Declared[i]) == i
  {
    var code := SourceCode(Declared[i]);
    assert Declared[code] == Declared[i];
    DeclaredDistinct(code, i);
  }

  /** The declaration lists each cause once. */
  lemma DeclaredDistinct(i: nat, j: nat)
    requires i < |Declared| && j < |Declared| && Declared[i] == Declared[j]
    ensures i == j
  {
  }

  /**
   A thrown exception: its cause, the OS error code (0 when there is none), a
   human-readable reason, and the identity of the stream it concerns. The stream
   is named by its target name rather than by a pointer, so an error can never
   refer to a stream that has already been destroyed.
   */
  datatype DashelError = DashelError(source: Source, sysError: int, reason: string, stream: Option<string>)

  datatype Option<+T> = None | Some(value: T)

  /** Success value or the exception that would have been thrown instead. */
  datatype Result<+T> = Success(value: T) | Failure(error: DashelError) {
    predicate IsFailure() {
      Failure?
    }

    function PropagateFailure<U>(): Result<U>
      requires Failure?
    {
      Failure(error)
    }

    function Extract(): T
      requires Success?
    {
      value
    }
  }

  /** An error raised before any stream exists, such as a bad target string. */
  function Raise<T>(source: Source, reason: string): (r: Result<T>)
    ensures r.Failure? && r.error.source == source && r.error.stream == None
  {
    Failure(DashelError(source, 0, reason, None))
  }
}

=== FILE: hub.dfy ===
/**
 The hub: the set of every stream it owns, the subset of those that transfer
 data (the others only listen for incoming connections), and the callbacks it
 raises. Streams are named by identities the hub hands out and never reuses;
 the callbacks are recorded, in order, as an event trace.
 */
module Hubs {
  import opened Errors
  import Targets
  import Streams

  type StreamId = nat

  /** One invocation of connectionCreated, incomingData or connectionClosed. */
  datatype Event =
    | ConnectionCreated(id: StreamId)
    | IncomingData(id: StreamId)
    | ConnectionClosed(id: StreamId, abnormal: bool)

  /**
   `streams` holds every owned stream, listening or data; `dataStreams` the
   identities of those that transfer data; `stopped` records a call to stop();
   `nextId` is the next identity to hand out.
   */
  datatype Hub = Hub(
    streams: map<StreamId, Streams.Stream>,
    dataStreams: set<StreamId>,
    stopped: bool,
    nextId: StreamId,
    trace: seq<Event>)

  /** The trace reports the closing of a stream at most once. */
  predicate ClosedOnce(trace: seq<Event>) {
    forall i, j :: 0 <= i < j < |trace| && trace[i].ConnectionClosed? && trace[j].ConnectionClosed? ==>
      trace[i].id != trace[j].id
  }

  /**
   The hub's invariant: data streams are owned streams, identities are handed
   out in increasing order, and a stream whose closing was reported is gone.
   */
  predicate Valid(h: Hub) {
    && h.dataStreams <= h.streams.Keys
    && (forall id :: id in h.streams ==> id < h.nextId)
    && (forall i :: 0 <= i < |h.trace| ==> h.trace[i].id < h.nextId)
    && (forall i :: 0 <= i < |h.trace| && h.trace[i].ConnectionClosed? ==> h.trace[i].id !in h.streams)
    && ClosedOnce(h.trace)
  }

  /** The trace from index `from` on reports the closing of `id`. */
  predicate ClosedIn(trace: seq<Event>, from: nat, id: StreamId) {
    exists k :: from <= k < |trace| && trace[k].ConnectionClosed? && trace[k].id == id
  }

  lemma ClosedInGrows(t1: seq<Event>, t2: seq<Event>, from: nat, id: StreamId)
    requires t1 <= t2 && ClosedIn(t1, from, id)
    ensures ClosedIn(t2, from, id)
  {
    var k :| from <= k < |t1| && t1[k].ConnectionClosed? && t1[k].id == id;
    assert t2[k] == t1[k];
  }

  /** A new hub owns no stream and has not been stopped. */
  function NewHub(): (h: Hub)
    ensures Valid(h)
    ensures h.streams == map[] && h.dataStreams == {} && !h.stopped && h.trace == []
  {
    Hub(map[], {}, false, 0, [])
  }

  /** The hub after an operation, and the operation's value or exception. */
  datatype HubOutcome<+T> = HubOutcome(hub: Hub, result: Result<T>)

  /** How the operating system answered a request to open a parsed target. */
  datatype Opening = Opened(listening: bool) | Refused(sysError: int)

  /**
   Whether opening `t` gave a listening stream. Files, serial ports and the
   standard streams are connections from the start; only a network target may
   instead wait for peers.
   */
  predicate Listens(t: Targets.Target, os: Opening) {
    os.Opened? && os.listening && t.TcpTarget?
  }

  const refusedReason := "cannot open target"

  /**
   Opens a target whose descriptor `target` parsed to `parsed` and registers
   the new stream. A data stream is announced by connectionCreated once it is
   registered in both sets; a listening stream is not announced.
   */
  function Open(h: Hub, target: string, parsed: Result<Targets.Target>, os: Opening): (r: HubOutcome<StreamId>)
    requires Valid(h)
    ensures Valid(r.hub)
    ensures r.result.Success? <==> parsed.Success? && os.Opened?
    ensures parsed.Failure? ==> r.hub == h && r.result.error == parsed.error
    ensures parsed.Success? && os.Refused? ==>
      r.hub == h && r.result.error.source == ConnectionFailed && r.result.error.sysError == os.sysError
    ensures r.result.Success? ==>
      var id := r.result.value;
      && id !in h.streams
      && r.hub.streams == h.streams[id := Streams.NewStream(target)]
      && (id in r.hub.dataStreams <==> !Listens(parsed.value, os))
      && r.hub.dataStreams - {id} == h.dataStreams
      && r.hub.trace == h.trace + (if id in r.hub.dataStreams then [ConnectionCreated(id)] else [])
      && r.hub.stopped == h.stopped
  {
    match parsed
    case Failure(e) => HubOutcome(h, Failure(e))
    case Success(t) =>
      match os
      case Refused(code) => HubOutcome(h, Failure(DashelError(ConnectionFailed, code, refusedReason, None)))
      case Opened(_) =>
        var id := h.nextId;
        var owned := h.(streams := h.streams[id := Streams.NewStream(target)], nextId := id + 1);
        if Listens(t, os) then HubOutcome(owned, Success(id))
        else
          HubOutcome(owned.(dataStreams := h.dataStreams + {id}, trace := h.trace + [ConnectionCreated(id)]), Success(id))
  }

  /**
   connect: parses the target, then opens it as Open describes. A descriptor
   the parser rejects leaves the hub unchanged and raises InvalidTarget; one it
   accepts and the system opens gives a new stream named after the target.
   */
  function Connect(h: Hub, target: string, os: Opening): (r: HubOutcome<StreamId>)
    requires Valid(h)
    ensures Valid(r.hub)
    ensures Targets.Parse(target).Failure? ==> r.hub == h && r.result.Failure? && r.result.error.source == InvalidTarget
    ensures r.result.Success? ==> Targets.Parse(target).Success? && os.Opened?
    ensures Targets.Parse(target).Success? && os.Opened? ==>
      && r.result.Success? && r.result.value !in h.streams
      && r.hub.streams == h.streams[r.result.value := Streams.NewStream(target)]
  {
    Open(h, target, Targets.Parse(target), os)
  }

  /**
   closeStream: the stream leaves both sets and is destroyed, every other
   stream is left alone, and connectionClosed is not raised. Closing a stream
   the hub does not own changes nothing in the hub.
   */
  function CloseStream(h: Hub, id: StreamId): (r: Hub)
    ensures Valid(h) ==> Valid(r)
    ensures id !in r.streams && id !in r.dataStreams
    ensures forall other :: other != id ==>
      && (other in r.streams <==> other in h.streams)
      && (other in r.dataStreams <==> other in h.dataStreams)
    ensures forall other :: other != id && other in r.streams ==> r.streams[other] == h.streams[other]
    ensures r.trace == h.trace && r.stopped == h.stopped && r.nextId == h.nextId
    ensures id !in h.streams && id !in h.dataStreams ==> r == h
  {
    h.(streams := h.streams - {id}, dataStreams := h.dataStreams - {id})
  }

  /** stop: every later step reports that the hub must stop; nothing else changes. */
  function Stop(h: Hub): (r: Hub)
    ensures r.stopped
    ensures r.streams == h.streams && r.dataStreams == h.dataStreams && r.trace == h.trace && r.nextId == h.nextId
    ensures Valid(h) ==> Valid(r)
  {
    h.(stopped := true)
  }

  /** The destructor destroys every remaining stream; no callback is raised. */
  function Teardown(h: Hub): (r: Hub)
    ensures Valid(h) ==> Valid(r)
    ensures r.streams == map[] && r.dataStreams == {}
    ensures r.trace == h.trace
  {
    h.(streams := map[], dataStreams := {})
  }

  // ---------------------------------------------------------------------------
  // One pass of step over the streams found ready

  /** What the readiness wait reported for one stream. */
  datatype Activity =
      /** A peer connected to a listening stream; it is known by `peer`. */
    | Incoming(peer: string)
      /**
       Bytes arrived on a data stream; the application's incomingData then
       reads `consumed` bytes from it, and the device answers that read with `io`.
       */
    | Data(bytes: seq<Streams.byte>, consumed: nat, io: Streams.Transfer)
      /** The other side closed the stream. */
    | EndOfInput
      /** The operating system reported an error on the stream. */
    | IoFailure(sysError: int)

  datatype Ready = Ready(id: StreamId, activity: Activity)

  /** The wait reports a set of streams: no stream appears twice in one report. */
  predicate DistinctIds(ready: seq<Ready>) {
    forall i, j :: 0 <= i < j < |ready| ==> ready[i].id != ready[j].id
  }

  /** The streams named in a readiness report. */
  function ReadyIds(ready: seq<Ready>): (ids: set<StreamId>)
    ensures forall i :: 0 <= i < |ready| ==> ready[i].id in ids
    ensures forall id :: id in ids ==> exists i :: 0 <= i < |ready| && ready[i].id == id
  {
    if |ready| == 0 then {}
    else
      var ids := {ready[0].id} + ReadyIds(ready[1..]);
      assert forall i :: 1 <= i < |ready| ==> ready[i] == ready[1..][i - 1];
      ids
  }

  /** The peer of a listening stream becomes a new data stream, announced once registered. */
  function Accept(h: Hub, peer: string): (r: Hub)
    requires Valid(h)
    ensures Valid(r)
    ensures h.nextId !in h.streams && r.nextId == h.nextId + 1
    ensures r.streams == h.streams[h.nextId := Streams.NewStream(peer)]
    ensures r.dataStreams == h.dataStreams + {h.nextId}
    ensures r.trace == h.trace + [ConnectionCreated(h.nextId)]
    ensures r.stopped == h.stopped
  {
    var id := h.nextId;
    h.(streams := h.streams[id := Streams.NewStream(peer)], dataStreams := h.dataStreams + {id},
       nextId := id + 1, trace := h.trace + [ConnectionCreated(id)])
  }

  /** A stream the hub found closed or failed is removed and its closing reported. */
  function Drop(h: Hub, id: StreamId, abnormal: bool): (r: Hub)
    requires Valid(h) && id in h.streams
    ensures Valid(r)
    ensures r.streams == h.streams - {id} && r.dataStreams == h.dataStreams - {id}
    ensures r.trace == h.trace + [ConnectionClosed(id, abnormal)]
    ensures r.nextId == h.nextId && r.stopped == h.stopped
  {
    var r := h.(streams := h.streams - {id}, dataStreams := h.dataStreams - {id},
                trace := h.trace + [ConnectionClosed(id, abnormal)]);
    assert forall i :: 0 <= i < |h.trace| && h.trace[i].ConnectionClosed? ==> h.trace[i].id != id;
    r
  }

  /**
   Bytes arrive on a data stream and incomingData is raised; the application's
   read then either succeeds or finds the stream closed or broken, in which case
   the hub removes it and raises connectionClosed with abnormal set.
   */
  function Deliver(h: Hub, id: StreamId, bytes: seq<Streams.byte>, consumed: nat, io: Streams.Transfer): (r: Hub)
    requires Valid(h) && id in h.dataStreams
    ensures Valid(r)
    ensures var s := h.streams[id];
      var readable := !s.failedFlag && io.Completes? && consumed <= |s.pending| + |bytes|;
      && (readable ==> id in r.streams && r.streams[id].pending == (s.pending + bytes)[consumed..]
                       && r.trace == h.trace + [IncomingData(id)])
      && (!readable ==> id !in r.streams && r.trace == h.trace + [IncomingData(id), ConnectionClosed(id, true)])
    ensures forall other :: other != id ==> (other in r.streams <==> other in h.streams)
    ensures forall other :: other != id && other in r.streams ==> r.streams[other] == h.streams[other]
    ensures forall other :: other in r.streams ==> (other in r.dataStreams <==> other in h.dataStreams)
    ensures r.nextId == h.nextId && r.stopped == h.stopped
  {
    var s := h.streams[id];
    var arrived := s.(pending := s.pending + bytes);
    var notified := h.(streams := h.streams[id := arrived], trace := h.trace + [IncomingData(id)]);
    var o := Streams.Read(arrived, consumed, io);
    if o.result.Success? then notified.(streams := notified.streams[id := o.stream])
    else Drop(notified, id, true)
  }

  /**
   Whether a readiness report fits the stream's kind: a listening stream only
   ever has incoming connections, and a data stream has data or hangs up.
   */
  predicate Fits(h: Hub, rd: Ready) {
    rd.activity.Incoming? <==> rd.id !in h.dataStreams
  }

  /**
   Services one ready stream, if it was owned when the pass began and still is.
   Readiness that does not fit the stream's kind is ignored.
   */
  function Handle(h: Hub, rd: Ready, snapshot: set<StreamId>): (r: Hub)
    requires Valid(h)
    ensures Valid(r)
    ensures !(rd.id in snapshot && rd.id in h.streams && Fits(h, rd)) ==> r == h
    ensures rd.id in snapshot && rd.id in h.streams && rd.id !in h.dataStreams && rd.activity.Incoming? ==>
      && r.streams == h.streams[h.nextId := Streams.NewStream(rd.activity.peer)]
      && r.dataStreams == h.dataStreams + {h.nextId}
      && r.trace == h.trace + [ConnectionCreated(h.nextId)]
    ensures rd.id in snapshot && rd.id in h.dataStreams && rd.activity.Data? ==>
      || r.trace == h.trace + [IncomingData(rd.id)]
      || r.trace == h.trace + [IncomingData(rd.id), ConnectionClosed(rd.id, true)]
    ensures rd.id in snapshot && rd.id in h.dataStreams && (rd.activity.EndOfInput? || rd.activity.IoFailure?) ==>
      && r.streams == h.streams - {rd.id} && r.dataStreams == h.dataStreams - {rd.id}
      && r.trace == h.trace + [ConnectionClosed(rd.id, false)]
  {
    if rd.id !in snapshot || rd.id !in h.streams || !Fits(h, rd) then h
    else
      match rd.activity
      case Incoming(peer) => Accept(h, peer)
      case Data(bytes, consumed, io) => Deliver(h, rd.id, bytes, consumed, io)
      case EndOfInput => Drop(h, rd.id, false)
      case IoFailure(_) => Drop(h, rd.id, false)
  }

  /**
   How a hub may change while the streams in `touched` are serviced: every
   other owned stream keeps its state, no stream changes kind, every removal is
   reported by connectionClosed, every stream added is a new data stream
   announced by connectionCreated, and callbacks other than connectionCreated
   only name owned streams of `touched`.
   */
  predicate Advances(h: Hub, r: Hub, touched: set<StreamId>) {
    && r.stopped == h.stopped
    && h.nextId <= r.nextId
    && h.trace <= r.trace
    && (forall id :: id in h.streams && id !in touched ==> id in r.streams && r.streams[id] == h.streams[id])
    && (forall id :: id in h.streams && id in r.streams ==> (id in r.dataStreams <==> id in h.dataStreams))
    && (forall id :: id in h.streams && id !in r.streams ==> ClosedIn(r.trace, |h.trace|, id))
    && (forall id :: id in r.streams && id !in h.streams ==> h.nextId <= id && id in r.dataStreams)
    && (forall id :: id in r.streams && id !in h.streams ==>
          exists i :: |h.trace| <= i < |r.trace| && r.trace[i] == ConnectionCreated(id))
    && (forall i :: |h.trace| <= i < |r.trace| && r.trace[i].ConnectionCreated? ==>
          h.nextId <= r.trace[i].id && r.trace[i].id in r.dataStreams)
    && (forall i :: |h.trace| <= i < |r.trace| && !r.trace[i].ConnectionCreated? ==>
          r.trace[i].id in touched && r.trace[i].id in h.streams)
  }

  lemma AcceptAdvances(h: Hub, peer: string, touched: set<StreamId>)
    requires Valid(h)
    ensures Advances(h, Accept(h, peer), touched)
  {
    assert Accept(h, peer).trace[|h.trace|] == ConnectionCreated(h.nextId);
  }

  lemma DropAdvances(h: Hub, id: StreamId, abnormal: bool, touched: set<StreamId>)
    requires Valid(h) && id in h.streams && id in touched
    ensures Advances(h, Drop(h, id, abnormal), touched)
  {
    var r := Drop(h, id, abnormal);
    assert r.trace[|h.trace|] == ConnectionClosed(id, abnormal);
  }

  lemma DeliverAdvances(h: Hub, id: StreamId, bytes: seq<Streams.byte>, consumed: nat, io: Streams.Transfer,
                        touched: set<StreamId>)
    requires Valid(h) && id in h.dataStreams && id in touched
    ensures Advances(h, Deliver(h, id, bytes, consumed, io), touched)
  {
    var r := Deliver(h, id, bytes, consumed, io);
    if id !in r.streams {
      assert r.trace[|h.trace| + 1] == ConnectionClosed(id, true);
    }
  }

  /** Servicing one ready stream touches that stream only, if it belongs to the pass. */
  lemma HandleAdvances(h: Hub, rd: Ready, snapshot: set<StreamId>)
    requires Valid(h)
    ensures Advances(h, Handle(h, rd, snapshot), snapshot * {rd.id})
  {
    var touched := snapshot * {rd.id};
    if rd.id in snapshot && rd.id in h.streams && Fits(h, rd) {
      match rd.activity
      case Incoming(peer) => AcceptAdvances(h, peer, touched);
      case Data(bytes, consumed, io) => DeliverAdvances(h, rd.id, bytes, consumed, io, touched);
      case EndOfInput => DropAdvances(h, rd.id, false, touched);
      case IoFailure(_) => DropAdvances(h, rd.id, false, touched);
    }
  }

  /** Servicing `a` and then `b` changes the hub as servicing `a` and `b` together may. */
  lemma AdvancesTransitive(h: Hub, m: Hub, r: Hub, a: set<StreamId>, b: set<StreamId>)
    requires Valid(h) && Valid(m)
    requires forall id :: id in b ==> id < h.nextId
    requires Advances(h, m, a) && Advances(m, r, b)
    ensures Advances(h, r, a + b)
  {
    forall id | id in h.streams && id !in r.streams
      ensures ClosedIn(r.trace, |h.trace|, id)
    {
      if id in m.streams {
        var k :| |m.trace| <= k < |r.trace| && r.trace[k].ConnectionClosed? && r.trace[k].id == id;
      } else {
        ClosedInGrows(m.trace, r.trace, |h.trace|, id);
      }
    }
    forall id | id in r.streams && id !in h.streams
      ensures exists i :: |h.trace| <= i < |r.trace| && r.trace[i] == ConnectionCreated(id)
    {
      if id in m.streams {
        var i :| |h.trace| <= i < |m.trace| && m.trace[i] == ConnectionCreated(id);
        assert r.trace[i] == m.trace[i];
      } else {
        var i :| |m.trace| <= i < |r.trace| && r.trace[i] == ConnectionCreated(id);
      }
    }
    forall i | |h.trace| <= i < |r.trace|
      ensures r.trace[i].ConnectionCreated? ==> h.nextId <= r.trace[i].id && r.trace[i].id in r.dataStreams
      ensures !r.trace[i].ConnectionCreated? ==> r.trace[i].id in a + b && r.trace[i].id in h.streams
    {
      if i < |m.trace| {
        assert r.trace[i] == m.trace[i];
      }
    }
  }

  /** Services the ready streams in the order the wait reported them. */
  function Service(h: Hub, ready: seq<Ready>, snapshot: set<StreamId>): (r: Hub)
    requires Valid(h)
    requires forall id :: id in snapshot ==> id < h.nextId
    ensures Valid(r) && Advances(h, r, snapshot * ReadyIds(ready))
    decreases |ready|
  {
    if |ready| == 0 then h
    else
      var m := Handle(h, ready[0], snapshot);
      HandleAdvances(h, ready[0], snapshot);
      var r := Service(m, ready[1..], snapshot);
      AdvancesTransitive(h, m, r, snapshot * {ready[0].id}, snapshot * ReadyIds(ready[1..]));
      assert snapshot * {ready[0].id} + snapshot * ReadyIds(ready[1..]) == snapshot * ReadyIds(ready);
      r
  }

  /**
   One call of step: what the wait found ready, and whether a callback called
   stop(). The wait reports each stream at most once.
   */
  datatype Round = Round(ready: seq<Ready>, stopRequested: bool)

  datatype StepResult = StepResult(hub: Hub, running: bool)

  /**
   step: a stopped hub returns false at once. Otherwise the streams owned at
   the start and reported ready are serviced (a connection accepted during the
   pass waits for the next one), every other stream is left alone, and the
   result is false exactly when stop() was called meanwhile.
   */
  function Step(h: Hub, round: Round): (r: StepResult)
    requires Valid(h) && DistinctIds(round.ready)
    ensures Valid(r.hub)
    ensures r.running <==> !h.stopped && !round.stopRequested
    ensures r.running <==> !r.hub.stopped
    ensures h.stopped ==> r.hub == h
    ensures h.trace <= r.hub.trace
  {
    if h.stopped then StepResult(h, false)
    else
      var serviced := Service(h, round.ready, h.streams.Keys);
      var after := if round.stopRequested then Stop(serviced) else serviced;
      StepResult(after, !after.stopped)
  }

  /**
   A step services only the streams it owned when it began and found ready:
   every other stream keeps its state, every removal is reported, and every
   stream added is a new, announced data stream.
   */
  lemma StepTouchesOnlyReady(h: Hub, round: Round)
    requires Valid(h) && DistinctIds(round.ready) && !h.stopped
    ensures Advances(h, Step(h, round).hub.(stopped := false), h.streams.Keys * ReadyIds(round.ready))
  {
    var serviced := Service(h, round.ready, h.streams.Keys);
    assert Step(h, round).hub.(stopped := false) == serviced;
  }

  /** Once stop() has been called, step reports false and changes nothing. */
  lemma StepAfterStop(h: Hub, round: Round)
    requires Valid(h) && DistinctIds(round.ready)
    ensures Step(Stop(h), round) == StepResult(Stop(h), false)
  {
  }

  /**
   Every connection announced during a step is a data stream of the hub when
   step returns: it was registered before the announcement and is not serviced
   in the pass that accepted it.
   */
  lemma StepCreatedAreDataStreams(h: Hub, round: Round)
    requires Valid(h) && DistinctIds(round.ready)
    ensures var r := Step(h, round).hub;
      forall i :: |h.trace| <= i < |r.trace| && r.trace[i].ConnectionCreated? ==> r.trace[i].id in r.dataStreams
  {
    var r := Step(h, round).hub;
    if !h.stopped {
      StepTouchesOnlyReady(h, round);
      forall i | |h.trace| <= i < |r.trace| && r.trace[i].ConnectionCreated?
        ensures r.trace[i].id in r.dataStreams
      {
      }
    }
  }

  lemma DistinctTail(ready: seq<Ready>)
    requires |ready| > 0 && DistinctIds(ready)
    ensures DistinctIds(ready[1..]) && forall i :: 0 < i < |ready| ==> ready[i].id != ready[0].id
  {
    assert forall a :: 0 <= a < |ready| - 1 ==> ready[1..][a] == ready[a + 1];
  }

  /** Servicing another stream leaves an owned stream owned and of the same kind. */
  lemma OtherKeepsKind(h: Hub, rd: Ready, snapshot: set<StreamId>, id: StreamId)
    requires Valid(h) && id in h.streams && rd.id != id
    ensures var m := Handle(h, rd, snapshot);
      && id in m.streams && (id in m.dataStreams <==> id in h.dataStreams)
      && h.nextId <= m.nextId && |h.trace| <= |m.trace|
  {
    HandleAdvances(h, rd, snapshot);
  }

  /** A hang-up at the head of the report closes the stream first, and it stays gone. */
  lemma HangUpAtHead(h: Hub, ready: seq<Ready>, snapshot: set<StreamId>)
    requires Valid(h)
    requires forall id :: id in snapshot ==> id < h.nextId
    requires |ready| > 0 && ready[0].id in snapshot && ready[0].id in h.dataStreams
    requires ready[0].activity.EndOfInput? || ready[0].activity.IoFailure?
    ensures var r := Service(h, ready, snapshot);
      && ready[0].id !in r.streams
      && |h.trace| < |r.trace| && r.trace[|h.trace|] == ConnectionClosed(ready[0].id, false)
  {
    var m := Handle(h, ready[0], snapshot);
    var r := Service(m, ready[1..], snapshot);
    assert r == Service(h, ready, snapshot);
    assert m.trace[|h.trace|] == ConnectionClosed(ready[0].id, false);
  }

  /**
   A data stream of the snapshot that hung up (end of input or an I/O error) is
   no longer owned once the pass is over, and its closing was reported with
   abnormal unset, whatever else the pass did.
   */
  lemma {:induction false} ServiceRemovesHungUp(h: Hub, ready: seq<Ready>, snapshot: set<StreamId>, i: nat)
    requires Valid(h) && DistinctIds(ready)
    requires forall id :: id in snapshot ==> id < h.nextId
    requires i < |ready| && ready[i].id in snapshot && ready[i].id in h.dataStreams
    requires ready[i].activity.EndOfInput? || ready[i].activity.IoFailure?
    ensures var r := Service(h, ready, snapshot);
      && ready[i].id !in r.streams
      && exists k :: |h.trace| <= k < |r.trace| && r.trace[k] == ConnectionClosed(ready[i].id, false)
    decreases |ready|
  {
    var id := ready[i].id;
    if i == 0 {
      HangUpAtHead(h, ready, snapshot);
      var r := Service(h, ready, snapshot);
      assert r.trace[|h.trace|] == ConnectionClosed(id, false);
    } else {
      var m := Handle(h, ready[0], snapshot);
      OtherKeepsKind(h, ready[0], snapshot, id);
      DistinctTail(ready);
      assert ready[1..][i - 1] == ready[i];
      ServiceRemovesHungUp(m, ready[1..], snapshot, i - 1);
      var r := Service(m, ready[1..], snapshot);
      assert r == Service(h, ready, snapshot);
      var k :| |m.trace| <= k < |r.trace| && r.trace[k] == ConnectionClosed(id, false);
      assert |h.trace| <= k;
    }
  }

  /**
   A data stream that was owned when step began and hung up during it is gone
   when step returns, and connectionClosed(stream, false) was raised for it
   exactly once.
   */
  lemma StepHangUpClosesOnce(h: Hub, round: Round, i: nat)
    requires Valid(h) && !h.stopped && DistinctIds(round.ready)
    requires i < |round.ready| && round.ready[i].id in h.dataStreams
    requires round.ready[i].activity.EndOfInput? || round.ready[i].activity.IoFailure?
    ensures var r := Step(h, round).hub;
      var id := round.ready[i].id;
      && id !in r.streams
      && (exists k :: |h.trace| <= k < |r.trace| && r.trace[k] == ConnectionClosed(id, false))
      && forall k1, k2 ::
           (|h.trace| <= k1 < k2 < |r.trace| && r.trace[k1].ConnectionClosed? && r.trace[k2].ConnectionClosed?)
           ==> r.trace[k1].id != r.trace[k2].id
  {
    var serviced := Service(h, round.ready, h.streams.Keys);
    ServiceRemovesHungUp(h, round.ready, h.streams.Keys, i);
    var r := Step(h, round).hub;
    assert r.streams == serviced.streams && r.trace == serviced.trace;
  }

  /** Data at the head of the report raises incomingData first. */
  lemma DataAtHead(h: Hub, ready: seq<Ready>, snapshot: set<StreamId>)
    requires Valid(h)
    requires forall id :: id in snapshot ==> id < h.nextId
    requires |ready| > 0 && ready[0].id in snapshot && ready[0].id in h.dataStreams && ready[0].activity.Data?
    ensures var r := Service(h, ready, snapshot);
      |h.trace| < |r.trace| && r.trace[|h.trace|] == IncomingData(ready[0].id)
  {
    var m := Handle(h, ready[0], snapshot);
    var r := Service(m, ready[1..], snapshot);
    assert r == Service(h, ready, snapshot);
    assert m.trace[|h.trace|] == IncomingData(ready[0].id);
  }

  /**
   Every data stream of the snapshot on which the wait found data has
   incomingData raised for it during the pass.
   */
  lemma {:induction false} ServiceDeliversData(h: Hub, ready: seq<Ready>, snapshot: set<StreamId>, i: nat)
    requires Valid(h) && DistinctIds(ready)
    requires forall id :: id in snapshot ==> id < h.nextId
    requires i < |ready| && ready[i].id in snapshot && ready[i].id in h.dataStreams && ready[i].activity.Data?
    ensures var r := Service(h, ready, snapshot);
      exists k :: |h.trace| <= k < |r.trace| && r.trace[k] == IncomingData(ready[i].id)
    decreases |ready|
  {
    var id := ready[i].id;
    if i == 0 {
      DataAtHead(h, ready, snapshot);
      var r := Service(h, ready, snapshot);
      assert r.trace[|h.trace|] == IncomingData(id);
    } else {
      var m := Handle(h, ready[0], snapshot);
      OtherKeepsKind(h, ready[0], snapshot, id);
      DistinctTail(ready);
      assert ready[1..][i - 1] == ready[i];
      ServiceDeliversData(m, ready[1..], snapshot, i - 1);
      var r := Service(m, ready[1..], snapshot);
      assert r == Service(h, ready, snapshot);
      var k :| |m.trace| <= k < |r.trace| && r.trace[k] == IncomingData(id);
      assert |h.trace| <= k;
    }
  }

  /** A connection at the head of the report is accepted and announced first. */
  lemma IncomingAtHead(h: Hub, ready: seq<Ready>, snapshot: set<StreamId>)
    requires Valid(h)
    requires forall id :: id in snapshot ==> id < h.nextId
    requires |ready| > 0 && ready[0].id in snapshot && ready[0].id in h.streams
    requires ready[0].id !in h.dataStreams && ready[0].activity.Incoming?
    ensures var r := Service(h, ready, snapshot);
      && |h.trace| < |r.trace| && r.trace[|h.trace|] == ConnectionCreated(h.nextId)
      && h.nextId in r.dataStreams
  {
    var m := Handle(h, ready[0], snapshot);
    var r := Service(m, ready[1..], snapshot);
    assert r == Service(h, ready, snapshot);
    assert m.trace[|h.trace|] == ConnectionCreated(h.nextId);
    assert r.trace[|h.trace|] == ConnectionCreated(h.nextId);
  }

  /**
   Every listening stream of the snapshot on which the wait found a peer has
   that peer accepted during the pass: connectionCreated names a new data
   stream, still registered when the pass is over.
   */
  lemma {:induction false} ServiceAcceptsIncoming(h: Hub, ready: seq<Ready>, snapshot: set<StreamId>, i: nat)
    requires Valid(h) && DistinctIds(ready)
    requires forall id :: id in snapshot ==> id < h.nextId
    requires i < |ready| && ready[i].id in snapshot && ready[i].id in h.streams
    requires ready[i].id !in h.dataStreams && ready[i].activity.Incoming?
    ensures var r := Service(h, ready, snapshot);
      exists k :: |h.trace| <= k < |r.trace| && r.trace[k].ConnectionCreated?
        && h.nextId <= r.trace[k].id && r.trace[k].id in r.dataStreams
    decreases |ready|
  {
    var id := ready[i].id;
    if i == 0 {
      IncomingAtHead(h, ready, snapshot);
      var r := Service(h, ready, snapshot);
      assert r.trace[|h.trace|] == ConnectionCreated(h.nextId);
    } else {
      var m := Handle(h, ready[0], snapshot);
      OtherKeepsKind(h, ready[0], snapshot, id);
      DistinctTail(ready);
      assert ready[1..][i - 1] == ready[i];
      ServiceAcceptsIncoming(m, ready[1..], snapshot, i - 1);
      var r := Service(m, ready[1..], snapshot);
      assert r == Service(h, ready, snapshot);
      var k :| |m.trace| <= k < |r.trace| && r.trace[k].ConnectionCreated?
        && m.nextId <= r.trace[k].id && r.trace[k].id in r.dataStreams;
      assert |h.trace| <= k;
    }
  }

  /**
   Step reads all available data: a data stream owned when step began on which
   the wait found data has incomingData raised for it.
   */
  lemma StepDeliversData(h: Hub, round: Round, i: nat)
    requires Valid(h) && !h.stopped && DistinctIds(round.ready)
    requires i < |round.ready| && round.ready[i].id in h.dataStreams && round.ready[i].activity.Data?
    ensures var r := Step(h, round).hub;
      exists k :: |h.trace| <= k < |r.trace| && r.trace[k] == IncomingData(round.ready[i].id)
  {
    var serviced := Service(h, round.ready, h.streams.Keys);
    ServiceDeliversData(h, round.ready, h.streams.Keys, i);
    var r := Step(h, round).hub;
    assert r.trace == serviced.trace;
  }

  /**
   Step takes connections from the listening streams: a listening stream owned
   when step began on which the wait found a peer gives a new data stream,
   announced by connectionCreated and registered when step returns.
   */
  lemma StepAcceptsIncoming(h: Hub, round: Round, i: nat)
    requires Valid(h) && !h.stopped && DistinctIds(round.ready)
    requires i < |round.ready| && round.ready[i].id in h.streams && round.ready[i].id !in h.dataStreams
    requires round.ready[i].activity.Incoming?
    ensures var r := Step(h, round).hub;
      exists k :: |h.trace| <= k < |r.trace| && r.trace[k].ConnectionCreated?
        && h.nextId <= r.trace[k].id && r.trace[k].id in r.dataStreams
  {
    var serviced := Service(h, round.ready, h.streams.Keys);
    ServiceAcceptsIncoming(h, round.ready, h.streams.Keys, i);
    var r := Step(h, round).hub;
    assert r.trace == serviced.trace && r.dataStreams == serviced.dataStreams;
  }

  /** Every readiness report of a run names each stream at most once. */
  predicate RoundsValid(rounds: seq<Round>) {
    forall k :: 0 <= k < |rounds| ==> DistinctIds(rounds[k].ready)
  }

  /** Where a run ends: the hub, and how many times step was called. */
  datatype RunResult = RunResult(hub: Hub, steps: nat)

  /**
   The hub and the number of calls when step is called once per round until it
   returns false or the rounds run out.
   */
  function RunSteps(h: Hub, rounds: seq<Round>): (r: RunResult)
    requires Valid(h) && RoundsValid(rounds)
    ensures Valid(r.hub) && h.trace <= r.hub.trace
    ensures r.steps <= |rounds| && (|rounds| > 0 ==> r.steps >= 1)
    decreases |rounds|
  {
    if |rounds| == 0 then RunResult(h, 0)
    else
      var s := Step(h, rounds[0]);
      if !s.running then RunResult(s.hub, 1)
      else
        assert RoundsValid(rounds[1..]) by {
          assert forall k :: 0 <= k < |rounds| - 1 ==> rounds[1..][k] == rounds[k + 1];
        }
        var rest := RunSteps(s.hub, rounds[1..]);
        RunResult(rest.hub, rest.steps + 1)
  }

  /** One call of step, then the rest of the run. */
  lemma RunStepsUnfold(h: Hub, rounds: seq<Round>)
    requires Valid(h) && RoundsValid(rounds) && |rounds| > 0
    ensures RoundsValid(rounds[1..])
    ensures !Step(h, rounds[0]).running ==> RunSteps(h, rounds) == RunResult(Step(h, rounds[0]).hub, 1)
    ensures Step(h, rounds[0]).running ==>
      RunSteps(h, rounds) == RunSteps(Step(h, rounds[0]).hub, rounds[1..]).(steps := RunSteps(Step(h, rounds[0]).hub, rounds[1..]).steps + 1)
  {
    assert forall k :: 0 <= k < |rounds| - 1 ==> rounds[1..][k] == rounds[k + 1];
    var s := Step(h, rounds[0]);
    if s.running {
      var rest := RunSteps(s.hub, rounds[1..]);
      assert RunSteps(h, rounds) == RunResult(rest.hub, rest.steps + 1);
    }
  }

  /** A run ends before its rounds run out only because the hub was stopped. */
  lemma {:induction false} RunStopsEarlyOnlyWhenStopped(h: Hub, rounds: seq<Round>)
    requires Valid(h) && RoundsValid(rounds)
    ensures RunSteps(h, rounds).steps < |rounds| ==> RunSteps(h, rounds).hub.stopped
    decreases |rounds|
  {
    if |rounds| > 0 {
      RunStepsUnfold(h, rounds);
      var s := Step(h, rounds[0]);
      if s.running {
        RunStopsEarlyOnlyWhenStopped(s.hub, rounds[1..]);
      }
    }
  }

  /**
   The hub is stopped at the end of a run exactly when it was stopped before
   or stop() was called in one of the rounds the run went through.
   */
  lemma {:induction false} RunStoppedIff(h: Hub, rounds: seq<Round>)
    requires Valid(h) && RoundsValid(rounds)
    ensures var r := RunSteps(h, rounds);
      r.hub.stopped <==> h.stopped || exists k :: 0 <= k < r.steps && rounds[k].stopRequested
    decreases |rounds|
  {
    if |rounds| > 0 {
      RunStepsUnfold(h, rounds);
      var s := Step(h, rounds[0]);
      if s.running {
        RunStoppedIff(s.hub, rounds[1..]);
        var rest := RunSteps(s.hub, rounds[1..]);
        assert forall k :: 1 <= k < rest.steps + 1 ==> rounds[k] == rounds[1..][k - 1];
      }
    }
  }

  /** A run that starts on a running hub goes on past every round but the last that called stop(). */
  lemma {:induction false} RunContinuesUntilStop(h: Hub, rounds: seq<Round>)
    requires Valid(h) && RoundsValid(rounds)
    ensures !h.stopped ==> forall k :: 0 <= k < RunSteps(h, rounds).steps - 1 ==> !rounds[k].stopRequested
    decreases |rounds|
  {
    if |rounds| > 0 && !h.stopped {
      RunStepsUnfold(h, rounds);
      var s := Step(h, rounds[0]);
      if s.running {
        RunContinuesUntilStop(s.hub, rounds[1..]);
        var rest := RunSteps(s.hub, rounds[1..]);
        assert forall k :: 1 <= k < rest.steps ==> rounds[k] == rounds[1..][k - 1];
      }
    }
  }

  /**
   run: calls step until it reports false. `rounds` lists what each call of
   step will find; the loop also ends when they run out.
   */
  method Run(h0: Hub, rounds: seq<Round>) returns (h: Hub, steps: nat)
    requires Valid(h0) && RoundsValid(rounds)
    ensures RunResult(h, steps) == RunSteps(h0, rounds)
    ensures Valid(h) && h0.trace <= h.trace
    ensures steps <= |rounds|
    ensures steps < |rounds| ==> h.stopped
    ensures h.stopped <==> h0.stopped || exists k :: 0 <= k < steps && rounds[k].stopRequested
    ensures !h0.stopped ==> forall k :: 0 <= k < steps - 1 ==> !rounds[k].stopRequested
  {
    h := h0;
    steps := 0;
    var running := true;
    while running && steps < |rounds|
      invariant Valid(h) && steps <= |rounds|
      invariant RoundsValid(rounds[steps..])
      invariant running ==>
        var rest := RunSteps(h, rounds[steps..]);
        RunSteps(h0, rounds).hub == rest.hub && RunSteps(h0, rounds).steps == rest.steps + steps
      invariant !running ==> RunSteps(h0, rounds) == RunResult(h, steps)
    {
      var rest := rounds[steps..];
      assert rest[0] == rounds[steps] && rest[1..] == rounds[steps + 1..];
      var r := Step(h, rounds[steps]);
      RunStepsUnfold(h, rest);
      h := r.hub;
      running := r.running;
      steps := steps + 1;
    }
    if running {
      assert rounds[steps..] == [];
    }
    RunStopsEarlyOnlyWhenStopped(h0, rounds);
    RunStoppedIff(h0, rounds);
    RunContinuesUntilStop(h0, rounds);
  }
}

=== FILE: streams.dfy ===
/**
 A byte stream: its target name, its failure state, and the bytes it carries,
 seen as a first-in first-out queue (what has been written and not yet read).
 Fixed-width values travel as their raw in-memory image: the typed write appends
 exactly sizeof(T) bytes in the host's own byte order and the typed read takes
 them back without any byte-order conversion.
 */
module Streams {
  import opened Errors

  newtype byte = b: int | 0 <= b < 256

  /**
   `failedFlag`, `failReason` and `targetName` are what failed(),
   getFailReason() and getTargetName() return.
   */
  datatype Stream = Stream(targetName: string, failedFlag: bool, failReason: string, pending: seq<byte>)

  /** The fail reason is empty for as long as the stream has not failed. */
  predicate Valid(s: Stream) {
    !s.failedFlag ==> s.failReason == ""
  }

  /** A new stream for a target: not failed, no reason, nothing queued. */
  function NewStream(targetName: string): (s: Stream)
    ensures Valid(s) && !s.failedFlag && s.failReason == ""
    ensures s.targetName == targetName && s.pending == []
  {
    Stream(targetName, false, "", [])
  }

  /**
   Puts the stream in the failed state with a reason. The cause and OS code
   belong to the exception raised alongside (see FailureOf); the stream itself
   keeps only the flag and the reason.
   */
  function Fail(s: Stream, source: Source, sysError: int, reason: string): (r: Stream)
    ensures Valid(r) && r.failedFlag && r.failReason == reason
    ensures r.targetName == s.targetName && r.pending == s.pending
  {
    s.(failedFlag := true, failReason := reason)
  }

  /** The exception describing a failure of `s`; it names the stream by its target. */
  function FailureOf(s: Stream, source: Source, sysError: int, reason: string): (e: DashelError)
    ensures e.source == source && e.stream == Some(s.targetName)
  {
    DashelError(source, sysError, reason, Some(s.targetName))
  }

  /** The stream after an operation, and the operation's value or exception. */
  datatype Outcome<+T> = Outcome(stream: Stream, result: Result<T>)

  /**
   What the device answers to a transfer: it completes, or it reports an
   error with the operating system's code.
   */
  datatype Transfer = Completes | DeviceError(sysError: int)

  const failedReason := "stream has failed"
  const endReason := "reached end of stream"
  const deviceReason := "device error"

  /**
   Writes all of `data`. A stream that has already failed refuses the operation
   with InvalidOperation and changes in no way; a device error fails the stream
   and raises IOError.
   */
  function Write(s: Stream, data: seq<byte>, io: Transfer): (r: Outcome<()>)
    ensures r.stream.targetName == s.targetName
    ensures Valid(s) ==> Valid(r.stream)
    ensures r.result.Success? <==> !s.failedFlag && io.Completes?
    ensures r.result.Success? ==> r.stream == s.(pending := s.pending + data)
    ensures s.failedFlag ==> r.stream == s && r.result.error == FailureOf(s, InvalidOperation, 0, failedReason)
    ensures !s.failedFlag && io.DeviceError? ==>
      && r.stream.failedFlag && r.stream.pending == s.pending
      && r.result.error == FailureOf(s, IOError, io.sysError, deviceReason)
  {
    if s.failedFlag then Outcome(s, Failure(FailureOf(s, InvalidOperation, 0, failedReason)))
    else match io
      case DeviceError(code) => Outcome(Fail(s, IOError, code, deviceReason), Failure(FailureOf(s, IOError, code, deviceReason)))
      case Completes => Outcome(s.(pending := s.pending + data), Success(()))
  }

  /** Flushing does not change the queued bytes; a failed stream refuses it. */
  function Flush(s: Stream): (r: Outcome<()>)
    ensures r.stream == s
    ensures r.result.Success? <==> !s.failedFlag
  {
    if s.failedFlag then Outcome(s, Failure(FailureOf(s, InvalidOperation, 0, failedReason)))
    else Outcome(s, Success(()))
  }

  /**
   Reads exactly `size` bytes, the oldest first. A device error fails the
   stream and raises IOError. When fewer bytes are available the end of the
   stream has been reached: the stream becomes failed and the read raises
   ConnectionLost.
   */
  function Read(s: Stream, size: nat, io: Transfer): (r: Outcome<seq<byte>>)
    ensures r.stream.targetName == s.targetName
    ensures Valid(s) ==> Valid(r.stream)
    ensures r.result.Success? <==> !s.failedFlag && io.Completes? && size <= |s.pending|
    ensures r.result.Success? ==> |r.result.value| == size && s.pending == r.result.value + r.stream.pending
    ensures r.result.Success? ==> !r.stream.failedFlag
    ensures !s.failedFlag && io.DeviceError? ==>
      r.stream.failedFlag && r.result.error == FailureOf(s, IOError, io.sysError, deviceReason)
    ensures !s.failedFlag && io.Completes? && size > |s.pending| ==>
      r.stream.failedFlag && r.result.error.source == ConnectionLost
    ensures s.failedFlag ==> r.stream == s && r.result.error.source == InvalidOperation
  {
    if s.failedFlag then Outcome(s, Failure(FailureOf(s, InvalidOperation, 0, failedReason)))
    else if io.DeviceError? then
      Outcome(Fail(s, IOError, io.sysError, deviceReason), Failure(FailureOf(s, IOError, io.sysError, deviceReason)))
    else if size > |s.pending| then
      Outcome(Fail(s, ConnectionLost, 0, endReason), Failure(FailureOf(s, ConnectionLost, 0, endReason)))
    else
      assert s.pending == s.pending[..size] + s.pending[size..];
      Outcome(s.(pending := s.pending[size..]), Success(s.pending[..size]))
  }

  /** Once failed, a stream stays failed whatever is read, written or flushed. */
  lemma FailedIsSticky(s: Stream, data: seq<byte>, size: nat, io: Transfer)
    requires s.failedFlag
    ensures Write(s, data, io).stream.failedFlag && Write(s, data, io).result.Failure?
    ensures Read(s, size, io).stream.failedFlag && Read(s, size, io).result.Failure?
    ensures Flush(s).stream.failedFlag && Flush(s).result.Failure?
  {
  }

  /**
   Bytes come out in the order they were written, after what was already
   queued, when the device completes both transfers.
   */
  lemma {:induction false} WriteThenRead(s: Stream, data: seq<byte>)
    requires !s.failedFlag
    ensures var w := Write(s, data, Completes).stream;
      var r := Read(w, |s.pending| + |data|, Completes);
      r.result == Success(s.pending + data) && r.stream.pending == [] && !r.stream.failedFlag
  {
    var w := Write(s, data, Completes).stream;
    assert w.pending == s.pending + data;
    var r := Read(w, |w.pending|, Completes);
    assert |r.result.value| == |w.pending|;
    assert r.result.value == w.pending;
  }

  // ---------------------------------------------------------------------------
  // Fixed-width values and their byte images

  /** The byte order of the host that performs a typed read or write. */
  datatype Endianness = LittleEndian | BigEndian

  function Pow256(n: nat): (p: nat)
    ensures p >= 1
  {
    if n == 0 then 1 else 256 * Pow256(n - 1)
  }

  /** The `size` bytes of `v`, least significant first. */
  function LittleEndianBytes(v: nat, size: nat): (bs: seq<byte>)
    requires v < Pow256(size)
    ensures |bs| == size
  {
    if size == 0 then [] else [(v % 256) as byte] + LittleEndianBytes(v / 256, size - 1)
  }

  /** The number whose least-significant-first bytes are `bs`. */
  function LittleEndianValue(bs: seq<byte>): (v: nat)
    ensures v < Pow256(|bs|)
  {
    if |bs| == 0 then 0 else bs[0] as nat + 256 * LittleEndianValue(bs[1..])
  }

  function Reverse(bs: seq<byte>): (r: seq<byte>)
    ensures |r| == |bs|
    ensures forall i :: 0 <= i < |bs| ==> r[i] == bs[|bs| - 1 - i]
  {
    if |bs| == 0 then [] else Reverse(bs[1..]) + [bs[0]]
  }

  lemma {:induction false} ReverseReverse(bs: seq<byte>)
    ensures Reverse(Reverse(bs)) == bs
  {
    var r := Reverse(Reverse(bs));
    assert forall i :: 0 <= i < |bs| ==> r[i] == bs[i];
  }

  /** Decoding the bytes of a value gives the value back. */
  lemma {:induction false} LittleEndianRoundTrip(v: nat, size: nat)
    requires v < Pow256(size)
    ensures LittleEndianValue(LittleEndianBytes(v, size)) == v
  {
    if size > 0 {
      var bs := LittleEndianBytes(v, size);
      LittleEndianRoundTrip(v / 256, size - 1);
      assert bs[1..] == LittleEndianBytes(v / 256, size - 1);
    }
  }

  /** Encoding the value of some bytes gives the same bytes back. */
  lemma {:induction false} LittleEndianBytesOfValue(bs: seq<byte>)
    ensures LittleEndianBytes(LittleEndianValue(bs), |bs|) == bs
  {
    if |bs| > 0 {
      var v := LittleEndianValue(bs);
      LittleEndianBytesOfValue(bs[1..]);
      assert v % 256 == bs[0] as nat;
      assert v / 256 == LittleEndianValue(bs[1..]);
    }
  }

  /** The raw memory image of a `size`-byte unsigned value on a host. */
  function Image(v: nat, size: nat, host: Endianness): (bs: seq<byte>)
    requires v < Pow256(size)
    ensures |bs| == size
  {
    match host
    case LittleEndian => LittleEndianBytes(v, size)
    case BigEndian => Reverse(LittleEndianBytes(v, size))
  }

  /** The unsigned value a host sees in a raw memory image. */
  function ValueOf(bs: seq<byte>, host: Endianness): (v: nat)
    ensures v < Pow256(|bs|)
  {
    match host
    case LittleEndian => LittleEndianValue(bs)
    case BigEndian =>
      var r := Reverse(bs);
      LittleEndianValue(r)
  }

  /** On one host, the image of a value denotes that value. */
  lemma ImageRoundTrip(v: nat, size: nat, host: Endianness)
    requires v < Pow256(size)
    ensures ValueOf(Image(v, size, host), host) == v
  {
    LittleEndianRoundTrip(v, size);
    ReverseReverse(LittleEndianBytes(v, size));
  }

  /** Writes a fixed-width value: exactly `size` bytes, its raw image on this host. */
  function WriteValue(s: Stream, v: nat, size: nat, host: Endianness, io: Transfer): (r: Outcome<()>)
    requires v < Pow256(size)
    ensures r.result.Success? <==> !s.failedFlag && io.Completes?
    ensures r.result.Success? ==> |r.stream.pending| == |s.pending| + size
    ensures r.result.Success? ==> r.stream.pending == s.pending + Image(v, size, host)
  {
    Write(s, Image(v, size, host), io)
  }

  /** Reads a fixed-width value: the next `size` bytes, taken as this host's image. */
  function ReadValue(s: Stream, size: nat, host: Endianness, io: Transfer): (r: Outcome<nat>)
    ensures r.result.Success? <==> !s.failedFlag && io.Completes? && size <= |s.pending|
    ensures r.result.Success? ==> r.result.value == ValueOf(s.pending[..size], host)
    ensures r.result.Success? ==> r.stream.pending == s.pending[size..]
  {
    var o := Read(s, size, io);
    match o.result
    case Failure(e) => Outcome(o.stream, Failure(e))
    case Success(bytes) =>
      assert bytes == s.pending[..size];
      Outcome(o.stream, Success(ValueOf(bytes, host)))
  }

  /**
   Writing a value and reading the same width back on the same host returns the
   value; the bytes that travelled are exactly its image.
   */
  lemma WriteValueThenReadValue(s: Stream, v: nat, size: nat, host: Endianness)
    requires !s.failedFlag && s.pending == []
    requires v < Pow256(size)
    ensures var w := WriteValue(s, v, size, host, Completes).stream;
      ReadValue(w, size, host, Completes).result == Success(v) && ReadValue(w, size, host, Completes).stream.pending == []
  {
    var w := WriteValue(s, v, size, host, Completes).stream;
    assert w.pending[..size] == Image(v, size, host);
    ImageRoundTrip(v, size, host);
  }

  /**
   No byte-order conversion happens: the two hosts put the same value on the
   wire as mirror images, and each reads the other's image as the same number.
   */
  lemma CrossHostImagesMirror(v: nat, size: nat)
    requires v < Pow256(size)
    ensures Image(v, size, BigEndian) == Reverse(Image(v, size, LittleEndian))
    ensures ValueOf(Image(v, size, LittleEndian), BigEndian) == ValueOf(Image(v, size, BigEndian), LittleEndian)
  {
  }

  /**
   A two-byte 1 written by a little-endian host is read as 256 by a
   big-endian one.
   */
  lemma {:induction false} CrossHostReadDiffers()
    ensures ValueOf(Image(1, 2, LittleEndian), BigEndian) == 256
  {
    var bs := Image(1, 2, LittleEndian);
    assert bs == [1, 0];
    assert Reverse(bs) == [0, 1];
    assert LittleEndianValue([1]) == 1;
    assert LittleEndianValue([0, 1]) == 256 by {
      assert [0, 1][1..] == [1 as byte];
    }
  }
}

=== FILE: target_properties.dfy ===
/**
 Properties of the target parser: keyed and positional spellings agree, a bare
 value after a keyed one is rejected, standard input and output take no
 parameters, and every well-formed target survives a print-and-parse round trip.
 */
module TargetProperties {
  import opened Errors
  import opened Text
  import opened Targets

  /** Parameters spelled with an explicit key: `names[i]=vals[i]`. */
  function KeyedTokens(keys: seq<string>, vals: seq<string>): (toks: seq<Token>)
    requires |keys| == |vals|
    ensures |toks| == |vals|
    ensures forall i :: 0 <= i < |vals| ==> toks[i] == Keyed(keys[i], vals[i])
  {
    seq(|vals|, i requires 0 <= i < |vals| => Keyed(keys[i], vals[i]))
  }

  /**
   The same values written with the first `k` bare and the rest keyed by their
   implicit names.
   */
  function MixedTokens(names: seq<string>, vals: seq<string>, k: nat): (toks: seq<Token>)
    requires |vals| <= |names| && k <= |vals|
    ensures |toks| == |vals|
    ensures forall i :: 0 <= i < k ==> toks[i] == Positional(vals[i])
    ensures forall i :: k <= i < |vals| ==> toks[i] == Keyed(names[i], vals[i])
  {
    seq(|vals|, i requires 0 <= i < |vals| => if i < k then Positional(vals[i]) else Keyed(names[i], vals[i]))
  }

  lemma MixedSlots(names: seq<string>, vals: seq<string>, k: nat)
    requires |vals| <= |names| && k <= |vals|
    ensures Slots(names, MixedTokens(names, vals, k)) == names[..|vals|]
    ensures Values(MixedTokens(names, vals, k)) == vals
  {
    var toks := MixedTokens(names, vals, k);
    assert Values(toks) == vals;
    forall i | 0 <= i < |toks| ensures SlotOf(names, toks, 0, i) == names[i] {
      if i < k {
        assert toks[i] == Positional(vals[i]);
      } else {
        assert toks[i] == Keyed(names[i], vals[i]);
      }
    }
  }

  lemma MixedResolvable(names: seq<string>, vals: seq<string>, k: nat)
    requires |vals| <= |names| && k <= |vals|
    ensures Resolvable(names, MixedTokens(names, vals, k), 0, false)
  {
    var toks := MixedTokens(names, vals, k);
    forall i | 0 <= i < |toks| && toks[i].Positional?
      ensures 0 + i < |names| && forall j :: 0 <= j < i ==> toks[j].Positional?
    {
    }
    forall i | 0 <= i < |toks| && toks[i].Keyed?
      ensures toks[i].key in names
    {
      assert toks[i] == Keyed(names[i], vals[i]);
    }
  }

  /**
   Bare values bind to the parameter names in the protocol's implicit order: any
   mix of bare values followed by keyed ones, with each key the name the
   position would have had, gives the same map as the fully keyed form.
   */
  lemma MixedFormsBindAlike(names: seq<string>, vals: seq<string>, k: nat)
    requires Distinct(names)
    requires |vals| <= |names| && k <= |vals|
    requires forall i :: 0 <= i < |vals| ==> vals[i] != ""
    ensures BindParams(names, MixedTokens(names, vals, k)) == Success(ZipMap(names[..|vals|], vals))
  {
    var toks := MixedTokens(names, vals, k);
    MixedSlots(names, vals, k);
    MixedResolvable(names, vals, k);
    assert Bindable(names, toks);
    var r := BindParams(names, toks);
    assert r == Success(ZipMap(Slots(names, toks), Values(toks)));
  }

  /** Values that can be written bare: non-empty, without `;` or `=`. */
  predicate BareValue(v: string) {
    v != "" && ';' !in v && '=' !in v
  }

  /** No parameter name contains `=` or `;`. */
  lemma NamesPrintable(p: Protocol)
    ensures forall i :: 0 <= i < |ParamNames(p)| ==> '=' !in ParamNames(p)[i] && ';' !in ParamNames(p)[i]
  {
    var names := ParamNames(p);
    forall i | 0 <= i < |names| ensures '=' !in names[i] && ';' !in names[i] {
      assert names[i] in ["name", "mode", "host", "port", "device", "baud", "stop", "parity", "fc", "bits"];
    }
  }

  /** Stages 1 and 2 on a descriptor whose tokens bind: the map is the tokens' zip. */
  lemma ParseParamsOfText(p: Protocol, toks: seq<Token>)
    requires forall i :: 0 <= i < |toks| ==> Writable(toks[i])
    requires Bindable(ParamNames(p), toks)
    ensures ParseParams(DescriptorText(p, toks)) ==
      Success(ParamSet(p, ZipMap(Slots(ParamNames(p), toks), Values(toks))))
  {
    TokenizeDescriptorText(p, toks);
    var raw := Tokenize(DescriptorText(p, toks));
    assert ProtocolOf(raw.protocol) == Some(p);
    var b := BindParams(ParamNames(p), toks);
    assert b == Success(ZipMap(Slots(ParamNames(p), toks), Values(toks)));
  }

  lemma MixedWritable(names: seq<string>, vals: seq<string>, k: nat)
    requires |vals| <= |names| && k <= |vals|
    requires forall i :: 0 <= i < |names| ==> '=' !in names[i] && ';' !in names[i]
    requires forall i :: 0 <= i < |vals| ==> BareValue(vals[i])
    ensures forall i :: 0 <= i < |vals| ==> Writable(MixedTokens(names, vals, k)[i])
  {
    var toks := MixedTokens(names, vals, k);
    forall i | 0 <= i < |toks| ensures Writable(toks[i]) {
      if i >= k {
        assert toks[i] == Keyed(names[i], vals[i]);
      }
    }
  }

  /**
   At the level of descriptor strings: for every protocol, writing the first `k`
   values bare and the rest as `name=value` parses to the map that sends the
   i-th implicit name to the i-th value. With k = 0 and k = |vals| this says
   `tcp:host=H;port=P` and `tcp:H;P` parse alike.
   */
  lemma DescriptorFormsAgree(p: Protocol, vals: seq<string>, k: nat)
    requires |vals| <= |ParamNames(p)| && k <= |vals|
    requires forall i :: 0 <= i < |vals| ==> BareValue(vals[i])
    ensures ParseParams(DescriptorText(p, MixedTokens(ParamNames(p), vals, k)))
         == Success(ParamSet(p, ZipMap(ParamNames(p)[..|vals|], vals)))
  {
    var names := ParamNames(p);
    NamesPrintable(p);
    MixedWritable(names, vals, k);
    MixedFormsBindAlike(names, vals, k);
    MixedSlots(names, vals, k);
    ParseParamsOfText(p, MixedTokens(names, vals, k));
  }

  /**
   The full parser gives the same answer for every way of splitting the values
   into a bare prefix and a keyed rest; in particular `tcp:host=H;port=P` and
   `tcp:H;P` denote the same target.
   */
  lemma KeyedAndBareParseAlike(p: Protocol, vals: seq<string>, k: nat)
    requires |vals| <= |ParamNames(p)| && k <= |vals|
    requires forall i :: 0 <= i < |vals| ==> BareValue(vals[i])
    ensures Parse(DescriptorText(p, MixedTokens(ParamNames(p), vals, k)))
         == Parse(DescriptorText(p, MixedTokens(ParamNames(p), vals, |vals|)))
  {
    DescriptorFormsAgree(p, vals, k);
    DescriptorFormsAgree(p, vals, |vals|);
  }

  /** A bare value after a keyed one makes the whole descriptor invalid. */
  lemma PositionalAfterKeyedRejected(names: seq<string>, toks: seq<Token>, i: nat, j: nat)
    requires i < j < |toks|
    requires toks[i].Keyed? && toks[j].Positional?
    ensures BindParams(names, toks).Failure?
    ensures BindParams(names, toks).error.source == InvalidTarget
  {
    assert !Resolvable(names, toks, 0, false);
  }

  /** The same at the level of descriptor strings, for any recognised protocol. */
  lemma DescriptorPositionalAfterKeyedRejected(text: string, i: nat, j: nat)
    requires i < j < |Tokenize(text).tokens|
    requires Tokenize(text).tokens[i].Keyed? && Tokenize(text).tokens[j].Positional?
    ensures Parse(text).Failure? && Parse(text).error.source == InvalidTarget
  {
    var raw := Tokenize(text);
    if ProtocolOf(raw.protocol).Some? {
      PositionalAfterKeyedRejected(ParamNames(ProtocolOf(raw.protocol).value), raw.tokens, i, j);
    }
  }

  /** An unrecognised protocol name is rejected whatever the parameters. */
  lemma UnknownProtocolRejected(text: string)
    requires Tokenize(text).protocol !in ["file", "tcp", "ser", "stdin", "stdout"]
    ensures Parse(text).Failure? && Parse(text).error.source == InvalidTarget
  {
  }

  lemma NothingBindsToNoNames(toks: seq<Token>)
    requires toks != []
    ensures !Resolvable([], toks, 0, false)
  {
    var names: seq<string> := [];
    if toks[0].Positional? {
      assert !(0 + 0 < |names|);
    } else {
      assert toks[0].key !in names;
    }
  }

  /** The standard streams bind nothing: any parameter is refused, keyed or not. */
  lemma StdioParams(text: string, p: Protocol)
    requires p == Stdin || p == Stdout
    requires ProtocolOf(Tokenize(text).protocol) == Some(p)
    ensures ParseParams(text).Success? <==> Tokenize(text).tokens == []
    ensures ParseParams(text).Success? ==> ParseParams(text).value == ParamSet(p, map[])
  {
    var toks := Tokenize(text).tokens;
    assert ParamNames(p) == [];
    if toks != [] {
      NothingBindsToNoNames(toks);
    } else {
      assert Slots([], toks) == [];
    }
  }

  /** `stdin` and `stdout` accept no parameter at all, keyed or not. */
  lemma StdioTakesNoParameters(text: string)
    requires Tokenize(text).protocol == "stdin" || Tokenize(text).protocol == "stdout"
    ensures Parse(text).Success? <==> Tokenize(text).tokens == []
  {
    var p := if Tokenize(text).protocol == "stdin" then Stdin else Stdout;
    assert ProtocolName(p) == Tokenize(text).protocol;
    StdioParams(text, p);
  }

  // ---------------------------------------------------------------------------
  // Printing a target and reading it back

  /** Descriptors written with every parameter keyed. */
  lemma KeyedResolvable(names: seq<string>, keys: seq<string>, vals: seq<string>)
    requires |keys| == |vals|
    requires forall i :: 0 <= i < |keys| ==> keys[i] in names
    ensures Resolvable(names, KeyedTokens(keys, vals), 0, false)
    ensures Slots(names, KeyedTokens(keys, vals)) == keys
    ensures Values(KeyedTokens(keys, vals)) == vals
  {
    var toks := KeyedTokens(keys, vals);
    assert Slots(names, toks) == keys;
    assert Values(toks) == vals;
  }

  /** A fully keyed descriptor parses to the zip of its keys and values. */
  lemma KeyedDescriptorParses(p: Protocol, keys: seq<string>, vals: seq<string>)
    requires |keys| == |vals| && Distinct(keys)
    requires forall i :: 0 <= i < |keys| ==> keys[i] in ParamNames(p)
    requires forall i :: 0 <= i < |vals| ==> Printable(vals[i])
    ensures ParseParams(DescriptorText(p, KeyedTokens(keys, vals))) == Success(ParamSet(p, ZipMap(keys, vals)))
  {
    var toks := KeyedTokens(keys, vals);
    NamesPrintable(p);
    assert forall i :: 0 <= i < |toks| ==> Writable(toks[i]);
    KeyedResolvable(ParamNames(p), keys, vals);
    ParseParamsOfText(p, toks);
  }

  function ProtocolOfTarget(t: Target): Protocol {
    match t
    case FileTarget(_, _) => File
    case TcpTarget(_, _) => Tcp
    case SerialTarget(_, _, _, _, _, _) => Ser
    case StdinTarget => Stdin
    case StdoutTarget => Stdout
  }

  /** The keys and values a serial target is written with. */
  function SerialKeys(device: string): seq<string> {
    [device, "baud", "stop", "parity", "fc", "bits"]
  }

  function SerialValues(first: string, baud: nat, stop: StopBits, parity: Parity, flow: FlowControl, bits: nat): seq<string> {
    [first, NatToString(baud), StopText(stop), ParityText(parity), FlowText(flow), NatToString(bits)]
  }

  /**
   The parameter names a target is written with, in the protocol's implicit
   order. A serial target is written with its device or its port, never both.
   */
  function FormatKeys(t: Target): seq<string> {
    match t
    case FileTarget(_, None) => ["name"]
    case FileTarget(_, Some(_)) => ["name", "mode"]
    case TcpTarget(_, _) => ["host", "port"]
    case SerialTarget(DeviceName(_), _, _, _, _, _) => SerialKeys("device")
    case SerialTarget(PortNumber(_), _, _, _, _, _) => SerialKeys("port")
    case StdinTarget => []
    case StdoutTarget => []
  }

  /** The values written for FormatKeys, in the same order. */
  function FormatValues(t: Target): seq<string> {
    match t
    case FileTarget(n, None) => [n]
    case FileTarget(n, Some(m)) => [n, ModeText(m)]
    case TcpTarget(h, p) => [h, NatToString(p)]
    case SerialTarget(DeviceName(n), baud, stop, parity, flow, bits) => SerialValues(n, baud, stop, parity, flow, bits)
    case SerialTarget(PortNumber(k), baud, stop, parity, flow, bits) =>
      SerialValues(NatToString(k), baud, stop, parity, flow, bits)
    case StdinTarget => []
    case StdoutTarget => []
  }

  /** The descriptor string of a target, every parameter keyed. */
  function Format(t: Target): string
    requires |FormatKeys(t)| == |FormatValues(t)|
  {
    DescriptorText(ProtocolOfTarget(t), KeyedTokens(FormatKeys(t), FormatValues(t)))
  }

  /** A text parameter that survives printing: non-empty and free of `;`. */
  predicate Printable(s: string) {
    s != "" && ';' !in s
  }

  /** Targets that some descriptor denotes. */
  predicate WellFormedTarget(t: Target) {
    match t
    case FileTarget(n, _) => Printable(n)
    case TcpTarget(h, _) => Printable(h)
    case SerialTarget(DeviceName(n), _, _, _, _, _) => Printable(n)
    case SerialTarget(PortNumber(k), _, _, _, _, _) => k >= 1
    case StdinTarget => true
    case StdoutTarget => true
  }

  /** Keys and values that can be written as a fully keyed descriptor of `p`. */
  predicate KeyedWritable(p: Protocol, keys: seq<string>, vals: seq<string>) {
    && |keys| == |vals| && Distinct(keys)
    && (forall i :: 0 <= i < |keys| ==> keys[i] in ParamNames(p))
    && (forall i :: 0 <= i < |vals| ==> Printable(vals[i]))
  }

  /** A fully keyed descriptor parses to whatever its parameter map resolves to. */
  lemma ParseKeyed(p: Protocol, keys: seq<string>, vals: seq<string>, t: Target)
    requires KeyedWritable(p, keys, vals)
    requires Resolve(ParamSet(p, ZipMap(keys, vals))) == Success(t)
    ensures Parse(DescriptorText(p, KeyedTokens(keys, vals))) == Success(t)
  {
    KeyedDescriptorParses(p, keys, vals);
  }

  /** What a target's own keys and values resolve to, and that they can be written. */
  predicate FormatResolvesTo(t: Target) {
    && KeyedWritable(ProtocolOfTarget(t), FormatKeys(t), FormatValues(t))
    && Resolve(ParamSet(ProtocolOfTarget(t), ZipMap(FormatKeys(t), FormatValues(t)))) == Success(t)
  }

  lemma FileResolves(n: string)
    requires Printable(n)
    ensures FormatResolvesTo(FileTarget(n, None))
  {
    var t := FileTarget(n, None);
    var keys := ["name"];
    var vals := [n];
    assert ProtocolOfTarget(t) == File && FormatKeys(t) == keys && FormatValues(t) == vals;
    assert keys[0] in ParamNames(File);
    var m := ZipMap(keys, vals);
    assert keys[0] in keys && m[keys[0]] == n;
    assert "mode" !in keys;
  }

  lemma FileModeWritable(n: string, mode: FileMode)
    requires Printable(n)
    ensures KeyedWritable(File, ["name", "mode"], [n, ModeText(mode)])
  {
    var vals := [n, ModeText(mode)];
    assert forall i :: 0 <= i < 2 ==> Printable(vals[i]);
  }

  lemma FileModeMap(n: string, mode: FileMode)
    ensures var m := ZipMap(["name", "mode"], [n, ModeText(mode)]);
      "name" in m && m["name"] == n && "mode" in m && m["mode"] == ModeText(mode)
  {
    var keys := ["name", "mode"];
    assert Distinct(keys);
    assert keys[0] in keys && keys[1] in keys;
  }

  lemma FileModeResolves(n: string, mode: FileMode)
    requires Printable(n)
    ensures FormatResolvesTo(FileTarget(n, Some(mode)))
  {
    var t := FileTarget(n, Some(mode));
    var keys := ["name", "mode"];
    var vals := [n, ModeText(mode)];
    assert ProtocolOfTarget(t) == File && FormatKeys(t) == keys && FormatValues(t) == vals;
    FileModeWritable(n, mode);
    FileModeMap(n, mode);
  }

  lemma TcpResolves(h: string, port: nat)
    requires Printable(h)
    ensures FormatResolvesTo(TcpTarget(h, port))
  {
    ParseNatToString(port);
    var m := ZipMap(["host", "port"], [h, NatToString(port)]);
    assert m["host"] == h;
    assert m["port"] == NatToString(port);
  }

  /** The settings other than the device survive printing. */
  lemma SerialSettingsReadBack(keys: seq<string>, vals: seq<string>, baud: nat, stop: StopBits, parity: Parity, flow: FlowControl, bits: nat)
    requires |keys| == 6 && |vals| == 6 && Distinct(keys)
    requires keys[1..] == ["baud", "stop", "parity", "fc", "bits"]
    requires vals[1..] == [NatToString(baud), StopText(stop), ParityText(parity), FlowText(flow), NatToString(bits)]
    ensures var m := ZipMap(keys, vals);
      && "baud" in m && m["baud"] == NatToString(baud)
      && "stop" in m && m["stop"] == StopText(stop)
      && "parity" in m && m["parity"] == ParityText(parity)
      && "fc" in m && m["fc"] == FlowText(flow)
      && "bits" in m && m["bits"] == NatToString(bits)
  {
    assert keys[1] == "baud" && keys[2] == "stop" && keys[3] == "parity" && keys[4] == "fc" && keys[5] == "bits";
  }

  /** A decimal rendering never contains the separator. */
  lemma NatTextPrintable(n: nat)
    ensures Printable(NatToString(n))
  {
    var s := NatToString(n);
    assert forall i :: 0 <= i < |s| ==> s[i] != ';';
  }

  lemma SerialKeysNamed(device: string)
    requires device == "device" || device == "port"
    ensures Distinct(SerialKeys(device))
    ensures forall i :: 0 <= i < 6 ==> SerialKeys(device)[i] in ParamNames(Ser)
    ensures device == "device" ==> "port" !in SerialKeys(device)
    ensures device == "port" ==> "device" !in SerialKeys(device)
  {
  }

  lemma SerialWritable(device: string, first: string, baud: nat, stop: StopBits, parity: Parity, flow: FlowControl, bits: nat)
    requires device == "device" || device == "port"
    requires Printable(first)
    ensures KeyedWritable(Ser, SerialKeys(device), SerialValues(first, baud, stop, parity, flow, bits))
  {
    SerialKeysNamed(device);
    NatTextPrintable(baud);
    NatTextPrintable(bits);
    var vals := SerialValues(first, baud, stop, parity, flow, bits);
    assert forall i :: 0 <= i < 6 ==> Printable(vals[i]);
  }

  lemma SerialDeviceMap(n: string, baud: nat, stop: StopBits, parity: Parity, flow: FlowControl, bits: nat)
    requires Printable(n)
    ensures var t := SerialTarget(DeviceName(n), baud, stop, parity, flow, bits);
      ResolveSerial(ZipMap(SerialKeys("device"), SerialValues(n, baud, stop, parity, flow, bits))) == Success(t)
  {
    var t := SerialTarget(DeviceName(n), baud, stop, parity, flow, bits);
    var keys := SerialKeys("device");
    var vals := SerialValues(n, baud, stop, parity, flow, bits);
    SerialKeysNamed("device");
    var m := ZipMap(keys, vals);
    SerialSettingsReadBack(keys, vals, baud, stop, parity, flow, bits);
    ParseNatToString(baud);
    ParseNatToString(bits);
    assert keys[0] in keys && keys[0] == "device";
    assert m[keys[0]] == n;
    SerialResolvesTo(m, t);
  }

  lemma SerialPortMap(k: nat, baud: nat, stop: StopBits, parity: Parity, flow: FlowControl, bits: nat)
    requires k >= 1
    ensures var t := SerialTarget(PortNumber(k), baud, stop, parity, flow, bits);
      ResolveSerial(ZipMap(SerialKeys("port"), SerialValues(NatToString(k), baud, stop, parity, flow, bits))) == Success(t)
  {
    var t := SerialTarget(PortNumber(k), baud, stop, parity, flow, bits);
    var keys := SerialKeys("port");
    var vals := SerialValues(NatToString(k), baud, stop, parity, flow, bits);
    SerialKeysNamed("port");
    var m := ZipMap(keys, vals);
    SerialSettingsReadBack(keys, vals, baud, stop, parity, flow, bits);
    ParseNatToString(baud);
    ParseNatToString(bits);
    ParseNatToString(k);
    assert keys[0] in keys && keys[0] == "port";
    assert m[keys[0]] == NatToString(k);
    SerialResolvesTo(m, t);
  }

  lemma SerialResolve(m: map<string, string>)
    ensures Resolve(ParamSet(Ser, m)) == ResolveSerial(m)
  {
  }

  lemma SerialDeviceResolves(n: string, baud: nat, stop: StopBits, parity: Parity, flow: FlowControl, bits: nat)
    requires Printable(n)
    ensures FormatResolvesTo(SerialTarget(DeviceName(n), baud, stop, parity, flow, bits))
  {
    var t := SerialTarget(DeviceName(n), baud, stop, parity, flow, bits);
    var keys := SerialKeys("device");
    var vals := SerialValues(n, baud, stop, parity, flow, bits);
    assert ProtocolOfTarget(t) == Ser && FormatKeys(t) == keys && FormatValues(t) == vals;
    SerialWritable("device", n, baud, stop, parity, flow, bits);
    SerialDeviceMap(n, baud, stop, parity, flow, bits);
    SerialResolve(ZipMap(keys, vals));
  }

  lemma SerialPortResolves(k: nat, baud: nat, stop: StopBits, parity: Parity, flow: FlowControl, bits: nat)
    requires k >= 1
    ensures FormatResolvesTo(SerialTarget(PortNumber(k), baud, stop, parity, flow, bits))
  {
    var t := SerialTarget(PortNumber(k), baud, stop, parity, flow, bits);
    var keys := SerialKeys("port");
    var vals := SerialValues(NatToString(k), baud, stop, parity, flow, bits);
    assert ProtocolOfTarget(t) == Ser && FormatKeys(t) == keys && FormatValues(t) == vals;
    NatTextPrintable(k);
    SerialWritable("port", NatToString(k), baud, stop, parity, flow, bits);
    SerialPortMap(k, baud, stop, parity, flow, bits);
    SerialResolve(ZipMap(keys, vals));
  }

  /** A serial parameter map that spells out every setting of `t` resolves to `t`. */
  lemma SerialResolvesTo(m: map<string, string>, t: Target)
    requires t.SerialTarget?
    requires "baud" in m && ParseNat(m["baud"]) == Some(t.baud)
    requires "stop" in m && m["stop"] == StopText(t.stop)
    requires "parity" in m && m["parity"] == ParityText(t.parity)
    requires "fc" in m && m["fc"] == FlowText(t.flow)
    requires "bits" in m && ParseNat(m["bits"]) == Some(t.bits)
    requires t.device.DeviceName? ==> "device" in m && m["device"] == t.device.name && "port" !in m
    requires t.device.PortNumber? ==> "device" !in m && "port" in m && ParseNat(m["port"]) == Some(t.device.number)
    requires t.device.PortNumber? ==> t.device.number >= 1
    ensures ResolveSerial(m) == Success(t)
  {
    assert SerialValuesValid(m);
  }

  /** Every well-formed target's own keys and values resolve back to it. */
  lemma FormatResolves(t: Target)
    requires WellFormedTarget(t)
    ensures FormatResolvesTo(t)
  {
    match t
    case FileTarget(n, None) => FileResolves(n);
    case FileTarget(n, Some(mode)) => FileModeResolves(n, mode);
    case TcpTarget(h, port) => TcpResolves(h, port);
    case SerialTarget(DeviceName(n), baud, stop, parity, flow, bits) =>
      SerialDeviceResolves(n, baud, stop, parity, flow, bits);
    case SerialTarget(PortNumber(k), baud, stop, parity, flow, bits) =>
      SerialPortResolves(k, baud, stop, parity, flow, bits);
    case StdinTarget =>
    case StdoutTarget =>
  }

  /** Every well-formed target is read back from its own descriptor string. */
  lemma ParseFormat(t: Target)
    requires WellFormedTarget(t)
    ensures |FormatKeys(t)| == |FormatValues(t)|
    ensures Parse(Format(t)) == Success(t)
  {
    FormatResolves(t);
    ParseKeyed(ProtocolOfTarget(t), FormatKeys(t), FormatValues(t), t);
  }
}

=== FILE: targets.dfy ===
/**
 Target descriptors: strings of the form
   protocol:[param1key=]param1value;...;[paramNkey=]paramNvalue
 naming a file, a TCP/IP endpoint, a serial port, or standard input/output.

 Parsing happens in three stages, all pure: the text is cut into a protocol name
 and parameter tokens; the tokens are bound to parameter names (a value without a
 key takes the next name in the protocol's implicit order, and once a key has
 appeared every later parameter must carry one); the resulting name/value map is
 resolved into a typed target, checking values and filling in defaults. Every
 failure is an InvalidTarget error.
 */
module Targets {
  import opened Errors
  import opened Text

  datatype Protocol = File | Tcp | Ser | Stdin | Stdout

  function ProtocolName(p: Protocol): string {
    match p
    case File => "file"
    case Tcp => "tcp"
    case Ser => "ser"
    case Stdin => "stdin"
    case Stdout => "stdout"
  }

  /** The protocol a name denotes; only the five names above are recognised. */
  function ProtocolOf(name: string): (r: Option<Protocol>)
    ensures r.Some? ==> ProtocolName(r.value) == name
    ensures forall p :: ProtocolName(p) == name ==> r == Some(p)
  {
    if name == "file" then Some(File)
    else if name == "tcp" then Some(Tcp)
    else if name == "ser" then Some(Ser)
    else if name == "stdin" then Some(Stdin)
    else if name == "stdout" then Some(Stdout)
    else None
  }

  /** The parameters a protocol accepts, in their implicit order. */
  function ParamNames(p: Protocol): (names: seq<string>)
    ensures Distinct(names)
  {
    match p
    case File => ["name", "mode"]
    case Tcp => ["host", "port"]
    case Ser => ["device", "port", "baud", "stop", "parity", "fc", "bits"]
    case Stdin => []
    case Stdout => []
  }

  /** Every parse failure is an InvalidTarget error naming no stream. */
  predicate TargetError(e: DashelError) {
    e.source == InvalidTarget && e.stream == None
  }

  predicate Distinct(s: seq<string>) {
    forall i, j :: 0 <= i < j < |s| ==> s[i] != s[j]
  }

  // ---------------------------------------------------------------------------
  // Stage 1: cutting the text into a protocol name and tokens

  /** One parameter as written: a bare value, or `key=value`. */
  datatype Token = Positional(value: string) | Keyed(key: string, value: string)

  /** A parameter containing `=` is keyed; the key ends at the first `=`. */
  function ParseToken(t: string): (tok: Token)
    ensures '=' !in t ==> tok == Positional(t)
    ensures '=' in t ==> tok.Keyed? && '=' !in tok.key && t == tok.key + "=" + tok.value
  {
    match FindFirst(t, '=')
    case None => Positional(t)
    case Some(i) =>
      assert t == t[..i] + "=" + t[i + 1..];
      Keyed(t[..i], t[i + 1..])
  }

  /** How a token is written inside a descriptor. */
  function TokenText(tok: Token): string {
    match tok
    case Positional(v) => v
    case Keyed(k, v) => k + "=" + v
  }

  /** A token that reads back as itself and does not contain the separator. */
  predicate Writable(tok: Token) {
    && tok.value != ""
    && ';' !in tok.value
    && (tok.Positional? ==> '=' !in tok.value)
    && (tok.Keyed? ==> '=' !in tok.key && ';' !in tok.key)
  }

  /** Reading back a written token gives the same token. */
  lemma ParseTokenText(tok: Token)
    requires Writable(tok)
    ensures ParseToken(TokenText(tok)) == tok
    ensures ';' !in TokenText(tok)
  {
    match tok
    case Positional(v) =>
    case Keyed(k, v) =>
      var t := k + "=" + v;
      FindFirstAfterPrefix(k, '=', v);
      assert t[..|k|] == k;
      assert t[|k| + 1..] == v;
  }

  /** The protocol name and parameter tokens of a descriptor, before any checking. */
  datatype RawDescriptor = RawDescriptor(protocol: string, tokens: seq<Token>)

  function ParseTokens(parts: seq<string>): (toks: seq<Token>)
    ensures |toks| == |parts|
    ensures forall i :: 0 <= i < |parts| ==> toks[i] == ParseToken(parts[i])
  {
    seq(|parts|, i requires 0 <= i < |parts| => ParseToken(parts[i]))
  }

  function TokenTexts(toks: seq<Token>): (parts: seq<string>)
    ensures |parts| == |toks|
    ensures forall i :: 0 <= i < |toks| ==> parts[i] == TokenText(toks[i])
  {
    seq(|toks|, i requires 0 <= i < |toks| => TokenText(toks[i]))
  }

  /**
   The protocol is everything before the first `:`; a descriptor without `:`, or
   with nothing after it, has no parameters. Parameters are separated by `;`.
   */
  function Tokenize(text: string): RawDescriptor {
    match FindFirst(text, ':')
    case None => RawDescriptor(text, [])
    case Some(i) =>
      var rest := text[i + 1..];
      RawDescriptor(text[..i], if rest == "" then [] else ParseTokens(Split(rest, ';')))
  }

  /** The descriptor text for a protocol and a list of tokens. */
  function DescriptorText(p: Protocol, toks: seq<Token>): string {
    if |toks| == 0 then ProtocolName(p)
    else ProtocolName(p) + ":" + Join(TokenTexts(toks), ';')
  }

  lemma JoinNonEmpty(parts: seq<string>, sep: char)
    requires |parts| >= 1 && parts[0] != ""
    ensures Join(parts, sep) != ""
  {
    assert Join(parts, sep)[..|parts[0]|] == parts[0];
  }

  lemma ProtocolNameHasNoColon(p: Protocol)
    ensures ':' !in ProtocolName(p)
  {
  }

  /** Text after the first `:` is cut at every `;` into tokens. */
  lemma TokenizeAfterColon(name: string, rest: string)
    requires ':' !in name && rest != ""
    ensures Tokenize(name + ":" + rest) == RawDescriptor(name, ParseTokens(Split(rest, ';')))
  {
    var text := name + ":" + rest;
    FindFirstAfterPrefix(name, ':', rest);
    assert text[..|name|] == name;
    assert text[|name| + 1..] == rest;
  }

  /** Cutting up the joined texts of writable tokens gives the same tokens. */
  lemma ParseTokensOfTexts(toks: seq<Token>)
    requires |toks| >= 1
    requires forall i :: 0 <= i < |toks| ==> Writable(toks[i])
    ensures Join(TokenTexts(toks), ';') != ""
    ensures ParseTokens(Split(Join(TokenTexts(toks), ';'), ';')) == toks
  {
    var parts := TokenTexts(toks);
    forall i | 0 <= i < |toks|
      ensures ';' !in parts[i] && ParseToken(parts[i]) == toks[i]
    {
      ParseTokenText(toks[i]);
    }
    SplitJoin(parts, ';');
    JoinNonEmpty(parts, ';');
  }

  /** Cutting up the text of a list of writable tokens gives the same tokens. */
  lemma TokenizeDescriptorText(p: Protocol, toks: seq<Token>)
    requires forall i :: 0 <= i < |toks| ==> Writable(toks[i])
    ensures Tokenize(DescriptorText(p, toks)) == RawDescriptor(ProtocolName(p), toks)
  {
    ProtocolNameHasNoColon(p);
    if |toks| == 0 {
      assert FindFirst(ProtocolName(p), ':').None?;
    } else {
      ParseTokensOfTexts(toks);
      TokenizeAfterColon(ProtocolName(p), Join(TokenTexts(toks), ';'));
    }
  }

  // ---------------------------------------------------------------------------
  // Stage 2: binding tokens to parameter names

  /** The parameter name the token at index `i` binds, counting positions from `pos`. */
  function SlotOf(names: seq<string>, toks: seq<Token>, pos: nat, i: nat): string
    requires i < |toks|
  {
    match toks[i]
    case Keyed(k, _) => k
    case Positional(_) => if pos + i < |names| then names[pos + i] else ""
  }

  /**
   Every token can be bound: a bare value only while no key has been seen and
   while the implicit order still has a name for it; a key only if the protocol
   knows it.
   */
  predicate Resolvable(names: seq<string>, toks: seq<Token>, pos: nat, keyedSeen: bool) {
    && (forall i :: 0 <= i < |toks| && toks[i].Positional? ==>
          !keyedSeen && pos + i < |names| && forall j :: 0 <= j < i ==> toks[j].Positional?)
    && (forall i :: 0 <= i < |toks| && toks[i].Keyed? ==> toks[i].key in names)
  }

  /** The name bound by the first token of a list. */
  function FirstSlot(names: seq<string>, tok: Token, pos: nat, keyedSeen: bool): (r: Result<string>)
    ensures r.Failure? ==> TargetError(r.error)
  {
    match tok
    case Positional(_) =>
      if keyedSeen then Raise(InvalidTarget, "parameter without key after a keyed parameter")
      else if pos >= |names| then Raise(InvalidTarget, "too many parameters")
      else Success(names[pos])
    case Keyed(k, _) =>
      if k in names then Success(k) else Raise(InvalidTarget, "unknown parameter key")
  }

  lemma ResolvableUnfold(names: seq<string>, toks: seq<Token>, pos: nat, keyedSeen: bool)
    requires |toks| > 0
    ensures Resolvable(names, toks, pos, keyedSeen) <==>
      FirstSlot(names, toks[0], pos, keyedSeen).Success? &&
      Resolvable(names, toks[1..], pos + 1, keyedSeen || toks[0].Keyed?)
  {
    var rest := toks[1..];
    var ks := keyedSeen || toks[0].Keyed?;
    if Resolvable(names, toks, pos, keyedSeen) {
      forall i | 0 <= i < |rest| && rest[i].Positional?
        ensures !ks && pos + 1 + i < |names| && forall j :: 0 <= j < i ==> rest[j].Positional?
      {
        assert toks[i + 1].Positional?;
        assert forall j :: 0 <= j < i ==> rest[j] == toks[j + 1];
      }
      forall i | 0 <= i < |rest| && rest[i].Keyed?
        ensures rest[i].key in names
      {
        assert toks[i + 1].Keyed?;
      }
    }
    if FirstSlot(names, toks[0], pos, keyedSeen).Success? && Resolvable(names, rest, pos + 1, ks) {
      forall i | 0 <= i < |toks| && toks[i].Positional?
        ensures !keyedSeen && pos + i < |names| && forall j :: 0 <= j < i ==> toks[j].Positional?
      {
        if i > 0 {
          assert rest[i - 1].Positional?;
          assert forall j :: 0 < j < i ==> toks[j] == rest[j - 1];
        }
      }
      forall i | 0 <= i < |toks| && toks[i].Keyed?
        ensures toks[i].key in names
      {
        if i > 0 {
          assert rest[i - 1].Keyed?;
        }
      }
    }
  }

  /**
   The parameter names the tokens bind, in order, or InvalidTarget when some
   token cannot be bound.
   */
  function SlotNames(names: seq<string>, toks: seq<Token>, pos: nat, keyedSeen: bool): (r: Result<seq<string>>)
    ensures r.Failure? ==> TargetError(r.error)
    ensures r.Success? <==> Resolvable(names, toks, pos, keyedSeen)
    ensures r.Success? ==> (|r.value| == |toks| &&
      forall i :: 0 <= i < |toks| ==> r.value[i] == SlotOf(names, toks, pos, i))
    decreases |toks|
  {
    if |toks| == 0 then Success([])
    else
      ResolvableUnfold(names, toks, pos, keyedSeen);
      var first :- FirstSlot(names, toks[0], pos, keyedSeen);
      var rest :- SlotNames(names, toks[1..], pos + 1, keyedSeen || toks[0].Keyed?);
      assert forall i :: 0 < i < |toks| ==> SlotOf(names, toks, pos, i) == SlotOf(names, toks[1..], pos + 1, i - 1);
      Success([first] + rest)
  }

  /** A name/value map built from parallel lists; a later duplicate key wins. */
  function ZipMap(keys: seq<string>, vals: seq<string>): (m: map<string, string>)
    requires |keys| == |vals|
    ensures forall k :: k in m <==> k in keys
    ensures Distinct(keys) ==> forall i :: 0 <= i < |keys| ==> m[keys[i]] == vals[i]
  {
    if |keys| == 0 then map[]
    else
      var m := ZipMap(keys[..|keys| - 1], vals[..|vals| - 1])[keys[|keys| - 1] := vals[|vals| - 1]];
      assert forall k :: k in keys <==> k in keys[..|keys| - 1] || k == keys[|keys| - 1];
      m
  }

  function Values(toks: seq<Token>): (vs: seq<string>)
    ensures |vs| == |toks| && forall i :: 0 <= i < |toks| ==> vs[i] == toks[i].value
  {
    seq(|toks|, i requires 0 <= i < |toks| => toks[i].value)
  }

  /** The parameter name each token binds, in order. */
  function Slots(names: seq<string>, toks: seq<Token>): (slots: seq<string>)
    ensures |slots| == |toks|
    ensures forall i :: 0 <= i < |toks| ==> slots[i] == SlotOf(names, toks, 0, i)
  {
    seq(|toks|, i requires 0 <= i < |toks| => SlotOf(names, toks, 0, i))
  }

  predicate NonEmptyValues(toks: seq<Token>) {
    forall i :: 0 <= i < |toks| ==> toks[i].value != ""
  }

  /**
   Exactly the token lists that bind without error: every token can be bound,
   no two bind the same name, and no value is empty.
   */
  predicate Bindable(names: seq<string>, toks: seq<Token>) {
    Resolvable(names, toks, 0, false) && Distinct(Slots(names, toks)) && NonEmptyValues(toks)
  }

  /**
   The parameter map of a token list: each token's value under the name it binds.
   Fails with InvalidTarget exactly when the list is not Bindable.
   */
  function BindParams(names: seq<string>, toks: seq<Token>): (r: Result<map<string, string>>)
    ensures r.Failure? ==> TargetError(r.error)
    ensures r.Success? <==> Bindable(names, toks)
    ensures r.Success? ==> r.value == ZipMap(Slots(names, toks), Values(toks))
  {
    var slots :- SlotNames(names, toks, 0, false);
    assert slots == Slots(names, toks);
    if !Distinct(slots) then Raise(InvalidTarget, "parameter given twice")
    else if exists i :: 0 <= i < |toks| && toks[i].value == "" then Raise(InvalidTarget, "empty parameter value")
    else Success(ZipMap(slots, Values(toks)))
  }

  /** In a bound map, every token's value sits under the name it binds, and nothing else does. */
  lemma BoundValues(names: seq<string>, toks: seq<Token>)
    requires BindParams(names, toks).Success?
    ensures forall k :: k in BindParams(names, toks).value <==> k in Slots(names, toks)
    ensures forall i :: 0 <= i < |toks| ==> BindParams(names, toks).value[SlotOf(names, toks, 0, i)] == toks[i].value
  {
    var slots := Slots(names, toks);
    assert forall i :: 0 <= i < |toks| ==> SlotOf(names, toks, 0, i) == slots[i];
  }

  /** A descriptor checked for its protocol and bound to a parameter map. */
  datatype ParamSet = ParamSet(protocol: Protocol, values: map<string, string>)

  /**
   Stages 1 and 2: an unknown protocol name or tokens that do not bind give
   InvalidTarget; otherwise the protocol and its parameter map.
   */
  function ParseParams(text: string): (r: Result<ParamSet>)
    ensures r.Failure? ==> TargetError(r.error)
    ensures r.Success? <==>
      (ProtocolOf(Tokenize(text).protocol).Some? &&
       Bindable(ParamNames(ProtocolOf(Tokenize(text).protocol).value), Tokenize(text).tokens))
    ensures r.Success? ==> r.value.protocol == ProtocolOf(Tokenize(text).protocol).value
    ensures r.Success? ==>
      r.value.values == ZipMap(Slots(ParamNames(r.value.protocol), Tokenize(text).tokens), Values(Tokenize(text).tokens))
  {
    var raw := Tokenize(text);
    match ProtocolOf(raw.protocol)
    case None => Raise(InvalidTarget, "unknown protocol")
    case Some(p) =>
      var values :- BindParams(ParamNames(p), raw.tokens);
      Success(ParamSet(p, values))
  }

  // ---------------------------------------------------------------------------
  // Stage 3: typed targets, value checks and defaults

  datatype FileMode = Read | Write
  datatype SerialDevice = DeviceName(name: string) | PortNumber(number: nat)
  datatype StopBits = OneStopBit | TwoStopBits
  datatype Parity = NoParity | EvenParity | OddParity
  datatype FlowControl = NoFlowControl | HardwareFlowControl

  /**
   A resolved target. A file has no default mode, so it stays absent when not
   given. A serial target names its device either by system name or by port
   number, never both.
   */
  datatype Target =
    | FileTarget(name: string, mode: Option<FileMode>)
    | TcpTarget(host: string, port: nat)
    | SerialTarget(device: SerialDevice, baud: nat, stop: StopBits, parity: Parity, flow: FlowControl, bits: nat)
    | StdinTarget
    | StdoutTarget

  function ModeText(m: FileMode): string {
    match m
    case Read => "read"
    case Write => "write"
  }

  function StopText(s: StopBits): string {
    match s
    case OneStopBit => "1"
    case TwoStopBits => "2"
  }

  function ParityText(p: Parity): string {
    match p
    case NoParity => "none"
    case EvenParity => "even"
    case OddParity => "odd"
  }

  function FlowText(f: FlowControl): string {
    match f
    case NoFlowControl => "none"
    case HardwareFlowControl => "hard"
  }

  /** A file mode is `read` or `write`. */
  function ParseFileMode(s: string): (r: Option<FileMode>)
    ensures r.Some? <==> s in ["read", "write"]
    ensures r.Some? ==> ModeText(r.value) == s
  {
    if s == "read" then Some(Read) else if s == "write" then Some(Write) else None
  }

  /** A stop-bit count is 1 or 2. */
  function ParseStopBits(s: string): (r: Option<StopBits>)
    ensures r.Some? <==> s in ["1", "2"]
    ensures r.Some? ==> StopText(r.value) == s
  {
    if s == "1" then Some(OneStopBit) else if s == "2" then Some(TwoStopBits) else None
  }

  /** A parity is none, even or odd. */
  function ParseParity(s: string): (r: Option<Parity>)
    ensures r.Some? <==> s in ["none", "even", "odd"]
    ensures r.Some? ==> ParityText(r.value) == s
  {
    if s == "none" then Some(NoParity)
    else if s == "even" then Some(EvenParity)
    else if s == "odd" then Some(OddParity)
    else None
  }

  /** A flow control is none or hard. */
  function ParseFlowControl(s: string): (r: Option<FlowControl>)
    ensures r.Some? <==> s in ["none", "hard"]
    ensures r.Some? ==> FlowText(r.value) == s
  {
    if s == "none" then Some(NoFlowControl) else if s == "hard" then Some(HardwareFlowControl) else None
  }

  /** Serial port numbers start from 1. */
  function ParseSerialPort(s: string): (r: Option<nat>)
    ensures r.Some? <==> ParseNat(s).Some? && ParseNat(s).value >= 1
    ensures r.Some? ==> r.value == ParseNat(s).value
  {
    match ParseNat(s)
    case Some(n) => if n >= 1 then Some(n) else None
    case None => None
  }

  /** The value of an optional parameter: its default when absent, else its checked value. */
  function Setting<T>(values: map<string, string>, key: string, default: T, check: string -> Option<T>): (r: Result<T>)
    ensures r.Failure? ==> TargetError(r.error)
    ensures key !in values ==> r == Success(default)
    ensures key in values ==> (r.Success? <==> check(values[key]).Some?)
    ensures key in values && r.Success? ==> r.value == check(values[key]).value
  {
    if key !in values then Success(default)
    else match check(values[key])
      case None => Raise(InvalidTarget, "invalid value for parameter " + key)
      case Some(v) => Success(v)
  }

  /** The value of a parameter that has no default. */
  function Required<T>(values: map<string, string>, key: string, check: string -> Option<T>): (r: Result<T>)
    ensures r.Failure? ==> TargetError(r.error)
    ensures r.Success? <==> key in values && check(values[key]).Some?
    ensures r.Success? ==> r.value == check(values[key]).value
  {
    if key !in values then Raise(InvalidTarget, "missing parameter " + key)
    else match check(values[key])
      case None => Raise(InvalidTarget, "invalid value for parameter " + key)
      case Some(v) => Success(v)
  }

  function AnyText(s: string): Option<string> {
    Some(s)
  }

  function OptionalMode(s: string): Option<Option<FileMode>> {
    match ParseFileMode(s)
    case None => None
    case Some(m) => Some(Some(m))
  }

  /** True when every serial parameter that is present has an acceptable value. */
  predicate SerialValuesValid(values: map<string, string>) {
    && ("port" in values ==> ParseSerialPort(values["port"]).Some?)
    && ("baud" in values ==> ParseNat(values["baud"]).Some?)
    && ("stop" in values ==> values["stop"] in ["1", "2"])
    && ("parity" in values ==> values["parity"] in ["none", "even", "odd"])
    && ("fc" in values ==> values["fc"] in ["none", "hard"])
    && ("bits" in values ==> ParseNat(values["bits"]).Some?)
  }

  /**
   A serial target: every omitted setting takes its default (port 1, 115200 baud,
   1 stop bit, no parity, no flow control, 8 bits), and a given device takes
   priority over the port number.
   */
  function ResolveSerial(values: map<string, string>): (r: Result<Target>)
    ensures r.Failure? ==> TargetError(r.error)
    ensures r.Success? <==> SerialValuesValid(values)
    ensures r.Success? ==> r.value.SerialTarget?
    ensures r.Success? ==> ("device" in values ==> r.value.device == DeviceName(values["device"]))
    ensures r.Success? ==> ("device" !in values && "port" !in values ==> r.value.device == PortNumber(1))
    ensures r.Success? ==> ("device" !in values && "port" in values ==>
      r.value.device == PortNumber(ParseNat(values["port"]).value))
    ensures r.Success? ==> ("baud" !in values ==> r.value.baud == 115200)
    ensures r.Success? ==> ("stop" !in values ==> r.value.stop == OneStopBit)
    ensures r.Success? ==> ("parity" !in values ==> r.value.parity == NoParity)
    ensures r.Success? ==> ("fc" !in values ==> r.value.flow == NoFlowControl)
    ensures r.Success? ==> ("bits" !in values ==> r.value.bits == 8)
    ensures r.Success? ==> ("baud" in values ==> r.value.baud == ParseNat(values["baud"]).value)
    ensures r.Success? ==> ("stop" in values ==> StopText(r.value.stop) == values["stop"])
    ensures r.Success? ==> ("parity" in values ==> ParityText(r.value.parity) == values["parity"])
    ensures r.Success? ==> ("fc" in values ==> FlowText(r.value.flow) == values["fc"])
    ensures r.Success? ==> ("bits" in values ==> r.value.bits == ParseNat(values["bits"]).value)
  {
    var port :- Setting(values, "port", 1, ParseSerialPort);
    var baud :- Setting(values, "baud", 115200, ParseNat);
    var stop :- Setting(values, "stop", OneStopBit, ParseStopBits);
    var parity :- Setting(values, "parity", NoParity, ParseParity);
    var flow :- Setting(values, "fc", NoFlowControl, ParseFlowControl);
    var bits :- Setting(values, "bits", 8, ParseNat);
    var device := if "device" in values then DeviceName(values["device"]) else PortNumber(port);
    Success(SerialTarget(device, baud, stop, parity, flow, bits))
  }

  /** Stage 3: from a parameter map to a typed target. */
  function Resolve(ps: ParamSet): (r: Result<Target>)
    ensures r.Failure? ==> TargetError(r.error)
    ensures ps.protocol.File? ==>
      && (r.Success? <==> "name" in ps.values && ("mode" in ps.values ==> ParseFileMode(ps.values["mode"]).Some?))
      && (r.Success? ==> r.value == FileTarget(ps.values["name"], if "mode" in ps.values then ParseFileMode(ps.values["mode"]) else None))
    ensures ps.protocol.Tcp? ==>
      && (r.Success? <==> "host" in ps.values && "port" in ps.values && ParseNat(ps.values["port"]).Some?)
      && (r.Success? ==> r.value == TcpTarget(ps.values["host"], ParseNat(ps.values["port"]).value))
    ensures ps.protocol.Ser? ==> (r.Success? <==> SerialValuesValid(ps.values)) && (r.Success? ==> r.value.SerialTarget?)
    ensures ps.protocol.Stdin? ==> r == Success(StdinTarget)
    ensures ps.protocol.Stdout? ==> r == Success(StdoutTarget)
  {
    match ps.protocol
    case File =>
      var name :- Required(ps.values, "name", AnyText);
      var mode :- Setting(ps.values, "mode", None, OptionalMode);
      Success(FileTarget(name, mode))
    case Tcp =>
      var host :- Required(ps.values, "host", AnyText);
      var port :- Required(ps.values, "port", ParseNat);
      Success(TcpTarget(host, port))
    case Ser => ResolveSerial(ps.values)
    case Stdin => Success(StdinTarget)
    case Stdout => Success(StdoutTarget)
  }

  /** The full parser: a descriptor string to a typed target, or InvalidTarget. */
  function Parse(text: string): (r: Result<Target>)
    ensures r.Failure? ==> TargetError(r.error)
    ensures ProtocolOf(Tokenize(text).protocol).None? ==> r.Failure?
    ensures r.Success? ==> ParseParams(text).Success? && Resolve(ParseParams(text).value) == r
  {
    var ps :- ParseParams(text);
    Resolve(ps)
  }
}

=== FILE: text.dfy ===
/**
 Character-level helpers the target parser is built from: locating a separator,
 splitting on it and joining back, and decimal natural numbers.
 */
module Text {
  import opened Errors

  /** The index of the first occurrence of `c` in `s`, if any. */
  function FindFirst(s: string, c: char): (r: Option<nat>)
    ensures r.None? <==> c !in s
    ensures r.Some? ==> r.value < |s| && s[r.value] == c && c !in s[..r.value]
  {
    if |s| == 0 then None
    else if s[0] == c then Some(0)
    else
      match FindFirst(s[1..], c)
      case None => None
      case Some(i) =>
        assert s[..i + 1] == [s[0]] + s[1..][..i];
        Some(i + 1)
  }

  /** Cuts `s` at every occurrence of `sep`; an empty string gives one empty part. */
  function Split(s: string, sep: char): (parts: seq<string>)
    ensures |parts| >= 1
    ensures forall i :: 0 <= i < |parts| ==> sep !in parts[i]
    decreases |s|
  {
    match FindFirst(s, sep)
    case None => [s]
    case Some(i) => [s[..i]] + Split(s[i + 1..], sep)
  }

  /** Concatenates the parts with `sep` between consecutive ones. */
  function Join(parts: seq<string>, sep: char): string
    requires |parts| >= 1
  {
    if |parts| == 1 then parts[0] else parts[0] + [sep] + Join(parts[1..], sep)
  }

  /** The first occurrence of the separator in `x + [sep] + y` is right after `x`. */
  lemma FindFirstAfterPrefix(x: string, sep: char, y: string)
    requires sep !in x
    ensures FindFirst(x + [sep] + y, sep) == Some(|x|)
  {
    var s := x + [sep] + y;
    assert s[|x|] == sep;
    assert s[..|x|] == x;
  }

  /** Splitting at a first separator peels off the part before it. */
  lemma SplitAfterPrefix(x: string, sep: char, y: string)
    requires sep !in x
    ensures Split(x + [sep] + y, sep) == [x] + Split(y, sep)
  {
    var s := x + [sep] + y;
    FindFirstAfterPrefix(x, sep, y);
    assert s[..|x|] == x;
    assert s[|x| + 1..] == y;
  }

  /** Splitting a joined list gives the list back, when no part holds the separator. */
  lemma {:induction false} SplitJoin(parts: seq<string>, sep: char)
    requires |parts| >= 1
    requires forall i :: 0 <= i < |parts| ==> sep !in parts[i]
    ensures Split(Join(parts, sep), sep) == parts
  {
    if |parts| == 1 {
      assert FindFirst(parts[0], sep).None?;
    } else {
      SplitAfterPrefix(parts[0], sep, Join(parts[1..], sep));
      SplitJoin(parts[1..], sep);
      assert parts == [parts[0]] + parts[1..];
    }
  }

  /** Joining the parts of a split gives the original string back. */
  lemma {:induction false} JoinSplit(s: string, sep: char)
    ensures Join(Split(s, sep), sep) == s
    decreases |s|
  {
    match FindFirst(s, sep)
    case None =>
    case Some(i) =>
      var parts := Split(s, sep);
      assert parts[1..] == Split(s[i + 1..], sep);
      JoinSplit(s[i + 1..], sep);
      assert s == s[..i] + [sep] + s[i + 1..];
  }

  predicate IsDigit(c: char) {
    '0' <= c <= '9'
  }

  predicate AllDigits(s: string) {
    forall i :: 0 <= i < |s| ==> IsDigit(s[i])
  }

  function DigitValue(c: char): (d: nat)
    requires IsDigit(c)
    ensures d < 10
  {
    c as int - '0' as int
  }

  function DigitChar(d: nat): (c: char)
    requires d < 10
    ensures IsDigit(c) && DigitValue(c) == d
  {
    ('0' as int + d) as char
  }

  /** The value of a string of decimal digits, most significant first. */
  function DigitsValue(s: string): nat
    requires AllDigits(s)
  {
    if |s| == 0 then 0 else DigitsValue(s[..|s| - 1]) * 10 + DigitValue(s[|s| - 1])
  }

  /** Decimal rendering of a natural number, without leading zeros. */
  function NatToString(n: nat): (s: string)
    ensures |s| >= 1 && AllDigits(s)
    ensures n > 0 ==> s[0] != '0'
  {
    if n < 10 then [DigitChar(n)] else NatToString(n / 10) + [DigitChar(n % 10)]
  }

  /** A non-empty string of decimal digits read as a number; anything else is rejected. */
  function ParseNat(s: string): (r: Option<nat>)
    ensures r.Some? <==> |s| >= 1 && AllDigits(s)
  {
    if |s| >= 1 && AllDigits(s) then Some(DigitsValue(s)) else None
  }

  /** Parsing the rendering of a number gives the number back. */
  lemma {:induction false} ParseNatToString(n: nat)
    ensures ParseNat(NatToString(n)) == Some(n)
  {
    var s := NatToString(n);
    if n < 10 {
      assert s[..|s| - 1] == [];
    } else {
      ParseNatToString(n / 10);
      assert s[..|s| - 1] == NatToString(n / 10);
      assert DigitsValue(s) == (n / 10) * 10 + n % 10;
    }
  }
}
